=== FILE: README.md ===
# Pub serve proxy routing and manifest header editing, in Dafny

This project models two pieces of the IntelliJ plugins repository.

**The pub serve reverse proxy** (`PubServerService`). The Dart plugin forwards browser requests for a served directory to a `pub serve` process and keeps a pool of persistent connections to it. Without the Netty I/O, what is left is bookkeeping over four registries:

- `serverToClientContext`: which client each busy server channel works for.
- `clientContextToServerChannels`: a multimap from a client context to the server channels it has used.
- `freeServerChannels`: the idle pool.
- `servedDirToSocketAddress`: the pub serve address of each served directory.

Each callback is one atomic step from a `State` to a new `State` plus the outputs it emits:

- `BadGateway(client)`
- `Forward(client, message)`
- `Release(message)`
- `Write(channel, request)`

The callbacks modelled are:

- the server channel close listener;
- the client-inactive handler;
- routing a request to an active channel, a free channel or a new connection;
- the consumer run when a connection attempt finishes;
- the backend message handler;
- the address insert of `connectToProcess`;
- `closeProcessConnections`.

The retry loop of `connect` is a method whose log of attempts, sleeps and the final hand-over is proved against a reference log. The forwarded request is a pure function: the URI is rewritten, keep-alive is set, and the `Host` header is built. A trace module drives the proxy with arbitrary event sequences and proves the routing invariant holds after every one, both with the corrected handlers and with the handlers as written.

**Manifest header editing** (`OsgiPsiUtil`). This covers:

- `trimRange` (both overloads), over a string and offsets;
- the `createHeader` text template;
- `isHeader`, `setHeader`, `appendToHeader`, and the placement rule of `addHeader`.

A manifest is modelled abstractly as a sequence of sections, the first of them the main section. Each section is a sequence of children, some of which are headers.

Modules:

| file | module | what |
|---|---|---|
| wrappers.dfy | `Wrappers` | `Option` |
| ordered_sets.dfy | `OrderedSets` | a Java hash set as a duplicate-free sequence in iteration order |
| decimal.dfy | `Decimal` | decimal printing of a port, and parsing it back |
| pub_server_types.dfy | `PubServerTypes` | clients, contexts, socket addresses, channels, messages |
| forward_request.dfy | `ForwardRequest` | the rewritten request sent to pub serve |
| pub_server.dfy | `PubServer` | the registries, the callbacks, the invariant |
| connect_retry.dfy | `ConnectRetry` | the retry loop of `connect` |
| pub_server_trace.dfy | `PubServerTrace` | arbitrary event sequences keep the invariant |
| pub_server_findings.dfy | `PubServerFindings` | the two registry defects, as written and corrected |
| java_text.dfy | `JavaText` | `String.trim`, `StringUtil.trimTrailing`, `String.indexOf` |
| trim_range.dfy | `TrimRange` | `trimRange`, as written and corrected |
| manifest.dfy | `Manifest` | header lookup, `setHeader`, `appendToHeader`, `addHeader` |

Modelling choices:

- **Java hash sets.** They are duplicate-free sequences in iteration order, and the iteration order is taken to be insertion order. `findFreeServerChannel` looks only at the first element the iterator yields, and `findActiveServerChannel` returns the first match, so the order is observable.
- **`channel.isActive()`.** This becomes the parameter `active: set<ClientId>`.
- **Client contexts.** A client has two contexts:
  - `RequestContext(c)` is the context of the web server's request handler. It is handed to `sendToPubServer` and is the key of both registries.
  - `StateHandlerContext(c)` is the context Netty passes to `ClientChannelStateHandler`, the handler added to the client's pipeline.
  Netty gives each handler its own context, and contexts compare by identity.
- **`LOG.assertTrue`.** The checks at lines 155 and 255 are preconditions.

## Model

| member | source | states |
|---|---|---|
| OrderedSets.Add | Dart/src/com/jetbrains/lang/dart/pubServer/PubServerService.java:330 | adding to a set: the element is then a member, an existing member changes nothing, and no duplicate appears |
| OrderedSets.Remove | Dart/src/com/jetbrains/lang/dart/pubServer/PubServerService.java:60 | removing from a set: exactly that element stops being a member, an absent element changes nothing, no duplicate appears |
| OrderedSets.RemoveAt | Dart/src/com/jetbrains/lang/dart/pubServer/PubServerService.java:60 | in a duplicate-free set, removing the element at position k cuts out exactly that position and keeps the order of the others |
| PubServer.PutValue | Dart/src/com/jetbrains/lang/dart/pubServer/PubServerService.java:256 | `MultiMap.putValue`: the key's values gain the channel and every other key's values are unchanged |
| PubServer.RemoveValue | Dart/src/com/jetbrains/lang/dart/pubServer/PubServerService.java:64 | `MultiMap.remove(key, value)`: exactly that channel leaves the key's values and every other key is unchanged |
| PubServer.SendBadGateway | Dart/src/com/jetbrains/lang/dart/pubServer/PubServerService.java:168-172 | at most one bad gateway, and one exactly when the client's channel is active |
| PubServer.OnServerChannelClosed | Dart/src/com/jetbrains/lang/dart/pubServer/PubServerService.java:56-67 | a closed channel leaves the free pool and the server-to-client map. If it was busy, it also leaves its client's set, and that client alone gets one bad gateway when active. Other entries are unchanged. An unmapped channel yields no output |
| PubServer.Unbind | Dart/src/com/jetbrains/lang/dart/pubServer/PubServerService.java:327-333 | the listed channels busy for the key leave the server-to-client map and join the free pool; channels busy for another context are untouched (conditional `remove(key, value)`) |
| PubServer.ClientInactive | Dart/src/com/jetbrains/lang/dart/pubServer/PubServerService.java:321-335 | the context's entry leaves the client-to-servers relation; its channels still mapped to it are unmapped and freed; channels mapped to other contexts keep their mapping; no output |
| PubServer.FindFreeServerChannel | Dart/src/com/jetbrains/lang/dart/pubServer/PubServerService.java:279-290 | only the pool's first channel is examined: it is removed and returned exactly when its port equals the target port, otherwise the pool is unchanged |
| PubServer.FindActiveServerChannel | Dart/src/com/jetbrains/lang/dart/pubServer/PubServerService.java:269-277 | the first of the client's channels whose whole remote address equals the target; none exactly when no channel has that address |
| PubServer.Bind | Dart/src/com/jetbrains/lang/dart/pubServer/PubServerService.java:253-256 | the channel is mapped to the client and joins the client's set; nothing else changes |
| PubServer.AdoptFreeChannelAsWritten | Dart/src/com/jetbrains/lang/dart/pubServer/PubServerService.java:239-242 | reuse of a free channel as written: it joins the client's set, other contexts' sets, the server-to-client map, the pool and the addresses are unchanged |
| PubServer.SendToServer | Dart/src/com/jetbrains/lang/dart/pubServer/PubServerService.java:223-267 | the three routes. An active channel of the client to that address is written to with no state change. Failing that, a port-matching first free channel is popped, mapped to the client and added to the client's set, with other contexts' sets and the addresses unchanged, and written to. Otherwise a connection attempt to the directory's address is started with no state change |
| PubServer.SendToServerAsWritten | Dart/src/com/jetbrains/lang/dart/pubServer/PubServerService.java:232-243 | routing as written: the same writes, connection attempts, pool and client-to-servers relation as `SendToServer`, so a reused free channel joins the client's set (line 241), but the server-to-client map is never changed; with an empty pool it is `SendToServer` |
| PubServer.OnConnected | Dart/src/com/jetbrains/lang/dart/pubServer/PubServerService.java:246-262 | no channel means one bad gateway if the client is active and no state change; a new, unmapped channel is mapped to the client and joins the client's set, other contexts' sets, the free pool and the addresses are untouched, and the rewritten request is written to it |
| PubServer.MessageReceived | Dart/src/com/jetbrains/lang/dart/pubServer/PubServerService.java:309-317 | a message is forwarded to the channel's client exactly when a client is mapped and active; otherwise it is released exactly when reference counted, and nothing is emitted exactly when it is neither; the state is unchanged |
| PubServer.OnClientChannelInactiveAsWritten | Dart/src/com/jetbrains/lang/dart/pubServer/PubServerService.java:323-333 | the handler keyed by its own context: on registries keyed by request contexts it changes nothing and emits nothing |
| PubServer.OnClientChannelInactive | Dart/src/com/jetbrains/lang/dart/pubServer/PubServerService.java:323-333 | corrected: the client's request context alone leaves the client-to-servers relation; the pool gains exactly the channels listed and busy for it, which are unmapped; other contexts' channels keep their mapping; the addresses are unchanged and nothing is emitted |
| PubServer.ConnectToProcess | Dart/src/com/jetbrains/lang/dart/pubServer/PubServerService.java:153-155 | the directory, which must have no address yet, gets the loopback address and port; other directories and registries are unchanged |
| PubServer.TearDown | Dart/src/com/jetbrains/lang/dart/pubServer/PubServerService.java:175-187 | addresses, free pool and server-to-client map are cleared; the client-to-servers relation is kept |
| PubServer.CloseProcessConnections | Dart/src/com/jetbrains/lang/dart/pubServer/PubServerService.java:175-197 | teardown, then each client gets exactly as many bad gateways as server channels were busy for it, and none if it is inactive |
| PubServer.InitialInv | Dart/src/com/jetbrains/lang/dart/pubServer/PubServerService.java:46-54 | the empty registries satisfy the invariant: free pool duplicate-free and disjoint from the busy channels, each busy channel in its client's set, all keys request contexts |
| PubServer.ServerChannelClosedKeepsInv | Dart/src/com/jetbrains/lang/dart/pubServer/PubServerService.java:56-67 | the close listener keeps the invariant |
| PubServer.ServerChannelClosedKeepsPoolOrder | Dart/src/com/jetbrains/lang/dart/pubServer/PubServerService.java:59-60 | the close listener takes the closed channel out of the free pool where it stands; the other idle channels keep their order, which decides the channel offered next |
| PubServer.ClientInactiveKeepsInv | Dart/src/com/jetbrains/lang/dart/pubServer/PubServerService.java:321-335 | the client-inactive handler keeps the invariant, in particular a freed channel is no longer busy |
| PubServer.SendToServerAsWrittenKeepsInv | Dart/src/com/jetbrains/lang/dart/pubServer/PubServerService.java:239-242 | routing as written, adopting a free channel without mapping it, keeps the invariant |
| PubServer.SendToServerKeepsInv | Dart/src/com/jetbrains/lang/dart/pubServer/PubServerService.java:239-242 | popping a free channel and binding it keeps the free pool and the busy channels disjoint |
| PubServer.BindFirstFreeKeepsInv | Dart/src/com/jetbrains/lang/dart/pubServer/PubServerService.java:284-285 | taking the first free channel out of the pool and binding it to a request context keeps the invariant |
| PubServer.ConnectedKeepsInv | Dart/src/com/jetbrains/lang/dart/pubServer/PubServerService.java:253-256 | registering a fresh channel keeps the invariant |
| PubServer.ConnectToProcessKeepsInv | Dart/src/com/jetbrains/lang/dart/pubServer/PubServerService.java:153-155 | the address insert keeps the invariant |
| PubServer.TearDownKeepsInv | Dart/src/com/jetbrains/lang/dart/pubServer/PubServerService.java:182-183 | teardown keeps the invariant |
| Decimal.ToDecimal | Dart/src/com/jetbrains/lang/dart/pubServer/PubServerService.java:298 | a port prints as a non-empty run of digits with no leading zero except for 0 itself |
| Decimal.ParseToDecimal | Dart/src/com/jetbrains/lang/dart/pubServer/PubServerService.java:298 | parsing the printed port gives the port back |
| ForwardRequest.HostHeaderRoundTrip | Dart/src/com/jetbrains/lang/dart/pubServer/PubServerService.java:297-298 | the `Host` value host + ':' + port splits back at its last colon into the server's address |
| ForwardRequest.Forwarded | Dart/src/com/jetbrains/lang/dart/pubServer/PubServerService.java:292-300 | the forwarded request has the pub serve path as URI, keep-alive set, the `Host` header exactly host address + ':' + decimal port of the server channel, which reads back as that address, and everything else of the client request unchanged |
| ForwardRequest.ForwardedIgnoresRewrittenParts | Dart/src/com/jetbrains/lang/dart/pubServer/PubServerService.java:294-298 | two client requests that differ only in URI, keep-alive and host are forwarded identically |
| ConnectRetry.AttemptsShape | Dart/src/com/jetbrains/lang/dart/pubServer/PubServerService.java:210-216 | in a run of n attempts, attempt k is preceded by a sleep of k times the base delay for k = 2..n, and nothing is handed over before the end |
| ConnectRetry.RetryLogConsumesOnce | Dart/src/com/jetbrains/lang/dart/pubServer/PubServerService.java:199-221 | a run hands its result to the consumer exactly once, as its last event |
| ConnectRetry.Connect | Dart/src/com/jetbrains/lang/dart/pubServer/PubServerService.java:199-221 | at least one and at most the ceiling's attempts; the run stops at the first success, or hands over no channel only after the ceiling's worth of failures; the log is the reference log of that many attempts |
| PubServerTrace.NextKeepsInv | Dart/src/com/jetbrains/lang/dart/pubServer/PubServerService.java:46-54 | every event keeps the invariant on the four registries |
| PubServerTrace.RunKeepsInv | Dart/src/com/jetbrains/lang/dart/pubServer/PubServerService.java:46-54 | any sequence of events from a state satisfying the invariant keeps it |
| PubServerTrace.ReachableInv | Dart/src/com/jetbrains/lang/dart/pubServer/PubServerService.java:46-54 | after any event sequence from the empty registries, no idle channel is busy, idle channels are listed once, and each busy channel is among its client's channels; this holds both for the corrected handlers and for the program as written, where the free pool moreover stays empty |
| PubServerTrace.NextAsWrittenKeepsPoolEmpty | Dart/src/com/jetbrains/lang/dart/pubServer/PubServerService.java:323-333 | as written, every event keeps the invariant and an empty free pool: the only add to the pool (line 330) never runs |
| PubServerTrace.RunAsWrittenKeepsPoolEmpty | Dart/src/com/jetbrains/lang/dart/pubServer/PubServerService.java:323-333 | as written, any event sequence from an empty pool keeps the pool empty and the invariant |
| PubServerTrace.ReachableAsWrittenNeverAdopts | Dart/src/com/jetbrains/lang/dart/pubServer/PubServerService.java:239-242 | as written, on every reachable state routing agrees with the corrected routing: the free-channel branch is never taken |
| PubServerFindings.InactiveHandlerAsWrittenChangesNothing | Dart/src/com/jetbrains/lang/dart/pubServer/PubServerService.java:323-333 | keyed by the handler's own context, the client-inactive handler leaves all registries unchanged |
| PubServerFindings.InactiveHandlerAsWrittenKeepsChannelBusy | Dart/src/com/jetbrains/lang/dart/pubServer/PubServerService.java:323-333 | a concrete client whose channel stays busy and never reaches the free pool after it goes away |
| PubServerFindings.InactiveHandlerFreesClientChannels | Dart/src/com/jetbrains/lang/dart/pubServer/PubServerService.java:326-332 | keyed by the request context, every channel busy for the client is unmapped and freed, and other clients' channels keep their mapping |
| PubServerFindings.AdoptAsWrittenLeavesChannelUnrouted | Dart/src/com/jetbrains/lang/dart/pubServer/PubServerService.java:239-242 | as written, a reused free channel forwards no message to its new client, and its closing sends no bad gateway |
| PubServerFindings.ReusedChannelAnswersClient | Dart/src/com/jetbrains/lang/dart/pubServer/PubServerService.java:239-242 | with the channel bound, pub serve's reply reaches the active client and the channel's closing gives it one bad gateway |
| PubServerFindings.ConnectedChannelAnswersClient | Dart/src/com/jetbrains/lang/dart/pubServer/PubServerService.java:253-256 | a freshly connected channel routes replies and the close bad gateway to its client |
| JavaText.TrimSplits | osmorc/src/org/osmorc/util/OsgiPsiUtil.java:32 | `trim` leaves the text as a blank prefix, the result and a blank suffix; the result neither starts nor ends with a blank, and is empty only for an all-blank text |
| JavaText.TrimIdempotent | osmorc/src/org/osmorc/util/OsgiPsiUtil.java:32 | trimming twice is trimming once |
| JavaText.TrimTrailing | osmorc/src/org/osmorc/util/OsgiPsiUtil.java:58 | `trimTrailing` keeps a prefix, strips only whitespace, and the kept part does not end in whitespace |
| JavaText.TrimTrailingIgnoresTrailingWhitespace | osmorc/src/org/osmorc/util/OsgiPsiUtil.java:58 | appending whitespace does not change what `trimTrailing` keeps |
| JavaText.IndexOfFrom | osmorc/src/org/osmorc/util/OsgiPsiUtil.java:33 | `indexOf` gives the first occurrence at or after the start, or -1 when there is none |
| TrimRange.TrimRangeIn | osmorc/src/org/osmorc/util/OsgiPsiUtil.java:30-36 | `trimRange(element, range)` as written; its contract is `TrimRangeInFindsTrimmedText` |
| TrimRange.TrimRangeOf | osmorc/src/org/osmorc/util/OsgiPsiUtil.java:24-27 | `trimRange(element)`; its contract is `TrimRangeOfIsTrimmedExtent` |
| TrimRange.TrimRangeInFindsTrimmedText | osmorc/src/org/osmorc/util/OsgiPsiUtil.java:30-36 | the result spans exactly the range's trimmed text, is its first occurrence in the element text, starts no later than where it was cut from, and is (0, 0) when the trimmed text is empty |
| TrimRange.TrimmedTextFirstOccurrence | osmorc/src/org/osmorc/util/OsgiPsiUtil.java:32-33 | over the whole text, the first occurrence of the trimmed text is where the leading blanks end |
| TrimRange.TrimRangeOfIsTrimmedExtent | osmorc/src/org/osmorc/util/OsgiPsiUtil.java:24-27 | the one-argument overload runs from the first non-blank character to just past the last one, which by `TrimSplits` is exactly the text without its leading and trailing blanks; an all-blank text gives (0, 0) |
| TrimRange.TrimRangeWithinStaysInRange | osmorc/src/org/osmorc/util/OsgiPsiUtil.java:30-36 | corrected: the trimmed text located inside the given range, with only blanks of the range around it |
| TrimRange.TrimRangeInCanLeaveRange | osmorc/src/org/osmorc/util/OsgiPsiUtil.java:32-33 | "a" cut from "a a" at [2, 3) is found at [0, 1) as written, at [2, 3) corrected |
| TrimRange.WholeTextRangesAgree | osmorc/src/org/osmorc/util/OsgiPsiUtil.java:24-27 | on the full range [0, length) the written and the corrected readings agree |
| Manifest.HeaderTextRoundTrip | osmorc/src/org/osmorc/util/OsgiPsiUtil.java:70 | a header line name + ": " + value + "\n" reads back as its name and value when the name has no colon |
| Manifest.CreateHeader | osmorc/src/org/osmorc/util/OsgiPsiUtil.java:69-77 | the created header has the given name and the text of the template |
| Manifest.IsHeader | osmorc/src/org/osmorc/util/OsgiPsiUtil.java:38-40 | an element that exists, is a header, and has the given name; used by `FindHeader` |
| Manifest.GetHeader | osmorc/src/org/osmorc/util/OsgiPsiUtil.java:43 | the header found has the name asked for; `FindHeader` says which one |
| Manifest.FindHeader | osmorc/src/org/osmorc/util/OsgiPsiUtil.java:38-40 | the first child for which `isHeader` holds, i.e. a header whose name equals the given one; none exactly when there is no such child |
| Manifest.InsertPosition | osmorc/src/org/osmorc/util/OsgiPsiUtil.java:85-90 | the position right after the last header, or the first position when there is no header |
| Manifest.AddHeader | osmorc/src/org/osmorc/util/OsgiPsiUtil.java:79-91 | with no main section a section holding the header is appended; otherwise the new header sits at `InsertPosition`, removing it gives back the old main section, and the other sections are untouched |
| Manifest.AddHeaderAppends | osmorc/src/org/osmorc/util/OsgiPsiUtil.java:79-91 | after adding, the headers are the old headers in order followed by the new one |
| Manifest.PutHeader | osmorc/src/org/osmorc/util/OsgiPsiUtil.java:45-50 | replace-or-add shared by `setHeader` and `appendToHeader`; its contract is `PutHeaderReplacesInPlace`, `PutHeaderAddsWhenMissing`, `PutHeaderGetsNew` and `PutHeaderKeepsOthers` |
| Manifest.PutHeaderGetsNew | osmorc/src/org/osmorc/util/OsgiPsiUtil.java:45-50 | replace-or-add: looking the name up then gives the new header, and the other sections are untouched |
| Manifest.PutHeaderKeepsOthers | osmorc/src/org/osmorc/util/OsgiPsiUtil.java:45-50 | replace-or-add: looking up any other name gives what it gave before |
| Manifest.PutHeaderReplacesInPlace | osmorc/src/org/osmorc/util/OsgiPsiUtil.java:45-47 | replace-or-add on a name that has a header: the header `getHeader` gives is replaced where it stands: the main section keeps its length and changes only at that child, the header list changes only at that header's place, and the other sections are untouched |
| Manifest.PutHeaderAddsWhenMissing | osmorc/src/org/osmorc/util/OsgiPsiUtil.java:48-50 | replace-or-add on a name that has no header is `addHeader` of the new header |
| Manifest.SetHeader | osmorc/src/org/osmorc/util/OsgiPsiUtil.java:42-51 | `setHeader`; its contract is `SetHeaderReplacesInPlace`, `SetHeaderAddsWhenMissing`, `SetHeaderThenGet` and `SetHeaderIdempotent` |
| Manifest.AppendToHeader | osmorc/src/org/osmorc/util/OsgiPsiUtil.java:53-67 | `appendToHeader`; its contract is `AppendToHeaderReplacesInPlace`, `AppendToHeaderAddsWhenMissing`, `AppendToHeaderThenGet`, `AppendAfterSet` and `AppendToMissingHeaderSets` |
| Manifest.SetHeaderThenGet | osmorc/src/org/osmorc/util/OsgiPsiUtil.java:42-51 | after `setHeader`, the header of that name is the created one and headers of other names are unchanged |
| Manifest.SetHeaderReplacesInPlace | osmorc/src/org/osmorc/util/OsgiPsiUtil.java:45-47 | on a name that has a header, `setHeader` puts the created header in place: the header `getHeader` gives is replaced where it stands: the main section keeps its length and changes only at that child, the header list changes only at that header's place, and the other sections are untouched |
| Manifest.SetHeaderAddsWhenMissing | osmorc/src/org/osmorc/util/OsgiPsiUtil.java:48-50 | `setHeader` of a name that has no header is `addHeader` of the created header, which then ends the header list |
| Manifest.SetHeaderIdempotent | osmorc/src/org/osmorc/util/OsgiPsiUtil.java:42-51 | setting the same value twice equals setting it once |
| Manifest.AppendAfterSet | osmorc/src/org/osmorc/util/OsgiPsiUtil.java:53-62 | appending b to a header set to a gives the value a without trailing whitespace + ",\n " + b, or just b when a is all whitespace |
| Manifest.AppendToHeaderReplacesInPlace | osmorc/src/org/osmorc/util/OsgiPsiUtil.java:54-62 | on a name that has a header, `appendToHeader` puts the header with the appended value in place: the header `getHeader` gives is replaced where it stands: the main section keeps its length and changes only at that child, the header list changes only at that header's place, and the other sections are untouched |
| Manifest.AppendToHeaderAddsWhenMissing | osmorc/src/org/osmorc/util/OsgiPsiUtil.java:64-66 | `appendToHeader` of a name that has no header is `addHeader` of a header with just the new value, which then ends the header list |
| Manifest.AppendToHeaderThenGet | osmorc/src/org/osmorc/util/OsgiPsiUtil.java:53-67 | after `appendToHeader`, the header of that name carries the appended value and headers of other names are unchanged |
| Manifest.AppendToMissingHeaderSets | osmorc/src/org/osmorc/util/OsgiPsiUtil.java:64-66 | with no header of that name, `appendToHeader` is `setHeader` |

## Left out

- Netty transport. Bootstrap, pipelines, `HttpClientCodec`, `writeAndFlush` and `retain`/`release` are not modelled. Writes, forwards and releases are emitted as outputs.
- Concurrency. The concurrent maps and sets are modelled as if each callback ran atomically, one at a time.
- `Thread.sleep` in the retry loop. Only its duration is logged.
- Process supervision. `createProcessHandler`, `isPubServerProcessAlive`, the `processHandler` futures of `sendToPubServer` and the console getters are external process and IDE APIs. In the trace model the process becomes the `ProcessReady` and `ProcessStopped` events.
- The `serveDirAndSendRequest` path (lines 161-166, 227-236) only throws, and no caller reaches it. `SendToServer` instead requires an address for the directory, and the trace ignores requests for unserved directories.
- `NettyUtil.DEFAULT_CONNECT_ATTEMPT_COUNT` and `NettyUtil.MIN_START_TIME`. NettyUtil is not part of this model, so both are parameters of `ConnectRetry.Connect`.
- Host address. `getAddress().getHostAddress()` is taken to be the host string the address was made with.
- PSI tree mechanics. `PsiFileFactory` parsing, `replace`, `addBefore` and `addAfter` are modelled on an abstract manifest.
- The manifest parser is not part of this model. A created header is taken to parse back to one header whose value starts right after ": ". So the `IncorrectOperationException` of `createHeader` never arises here.
- `ManifestFile.getHeader` and `getHeaders` are not part of this model. They are taken to look at the main section only, and `getHeader` to return the first header with the name.
- `StringUtil.trimTrailing` is taken to strip by `Character.isWhitespace` as Java 9 and later define it. On Java 6 to 8, U+180E also counts as whitespace, and the model does not strip it. `MultiMap.get` is taken to give no values for an absent key. `MultiMap.remove(key, value)` is taken to drop a key left empty.
- DartPubActionBase, PhoneGapUtil and JstdResolveUtil. These are IDE action wiring, Swing and PSI resolution glue, with no state to model.
- PubServer.CloseProcessConnections: states how many bad gateways each client gets, not their order, because the order is that of a concurrent map's value collection.
- PubServer.SendToServer: models the corrected free-channel branch, which binds the channel in both registries. The routing as written is `PubServer.SendToServerAsWritten`.
- PubServerTrace.Next: a client's channel closing runs the corrected client-inactive handler, and only for clients whose handler was installed by a successful connect. `PubServerTrace.NextAsWritten` runs the handler and the routing as written.
- OrderedSets.Add: the iteration order is taken to be insertion order, so a new element is placed last. A Java hash set iterates in hash-bucket order, which can change when the table grows. `FindFreeServerChannel` and `FindActiveServerChannel` depend on the order, but none of the invariant lemmas does.
- TrimRange.TrimRangeIn: texts are taken to hold only characters of the Basic Multilingual Plane. Dafny strings count Unicode scalar values, while Java strings and `TextRange` offsets count UTF-16 code units. The two counts agree only on such texts, so the same holds for `TrimRange.TrimRangeOf`, `TrimRange.TrimRangeWithin` and `JavaText.IndexOfFrom`.

Four behaviours of the code that a reader might not expect, all modelled as the code has them:

- **Retry delays.** The sleep before attempt k is k times the base delay, for k = 2..N. There is no sleep before the first attempt.
- **Client leaves mid-connect.** When a client goes away while its connection is being made, the new channel is still bound to that client. It does not go to the idle pool.
- **Teardown scope.** `closeProcessConnections` clears the registries of every served directory at once.
- **No release on completion.** Nothing returns a channel to the idle pool when a response completes. Only the client-inactive handler frees channels.

After teardown the client-to-servers relation keeps its entries, which name channels that are already closed.

## Findings

| source | as written | input that shows it | evidently intended | confidence | as-written member | corrected member |
|---|---|---|---|---|---|---|
| Dart/src/com/jetbrains/lang/dart/pubServer/PubServerService.java:323-333 | `channelInactive` removes entries keyed by the context Netty passes to the state handler. The registries are keyed by the request handler's context (lines 241, 254, 256). | client 7 bound to channel 1 (127.0.0.1:8080) closes its connection: channel 1 stays busy for client 7 and never reaches the free pool | release the entries of the client's request context, freeing its busy channels | medium; not executed | PubServerFindings.InactiveHandlerAsWrittenKeepsChannelBusy | PubServerFindings.InactiveHandlerFreesClientChannels |
| Dart/src/com/jetbrains/lang/dart/pubServer/PubServerService.java:239-242 | a free channel taken for a client is added to the client's set only, never to `serverToClientContext` | a request served by a free channel: pub serve's reply is released instead of forwarded, and the channel closing sends the client no bad gateway. The input needs a free channel, so the defect is latent behind the previous row: line 330 is the only add to the free pool and never runs as written, so the pool stays empty (`PubServerTrace.ReachableAsWrittenNeverAdopts`) | map the channel to the client as a new connection does (lines 254-256) | medium; not executed | PubServerFindings.AdoptAsWrittenLeavesChannelUnrouted | PubServerFindings.ReusedChannelAnswersClient |
| osmorc/src/org/osmorc/util/OsgiPsiUtil.java:30-36 | the trimmed text of the range is located with `indexOf` over the whole element text | text "a a", range [2, 3): the result is [0, 1), outside the range | the range of the trimmed text inside the given range, [2, 3) | medium; not executed | TrimRange.TrimRangeInCanLeaveRange | TrimRange.TrimRangeWithinStaysInRange |

=== FILE: connect_retry.dfy ===
/**
 * The retry policy of `PubServerService.connect`: attempts are numbered
 * from 1, each failure bumps the counter, the attempt numbered k > 1 is
 * preceded by a sleep of k times the base delay, and once the counter
 * passes the ceiling the consumer is handed no channel.
 *
 * The ceiling (`NettyUtil.DEFAULT_CONNECT_ATTEMPT_COUNT`) and the base
 * delay (`NettyUtil.MIN_START_TIME`) are parameters; the outcome of the
 * k-th attempt is the environment's `outcome(k)`.
 */
module ConnectRetry {
  import opened Wrappers
  import opened PubServerTypes

  datatype ConnectEvent = Attempt(number: nat) | Sleep(millis: nat) | Consume(result: Option<Channel>)

  /** The first attempt is made whatever the ceiling; after that the ceiling bounds the attempts. */
  function MostAttempts(maxAttempts: nat): nat {
    if maxAttempts < 1 then 1 else maxAttempts
  }

  /** Reference log of attempts 1..n: attempt 1, then for each k in 2..n a sleep of k * delay and attempt k. */
  function Attempts(n: nat, delay: nat): (log: seq<ConnectEvent>)
    requires n >= 1
    ensures |log| == 2 * n - 1
  {
    if n == 1 then [Attempt(1)] else Attempts(n - 1, delay) + [Sleep(n * delay), Attempt(n)]
  }

  /** Reference log of a whole run of n attempts that ends by handing `result` to the consumer. */
  function RetryLog(n: nat, delay: nat, result: Option<Channel>): (log: seq<ConnectEvent>)
    requires n >= 1
    ensures |log| == 2 * n
  {
    Attempts(n, delay) + [Consume(result)]
  }

  lemma {:induction false} AttemptsHaveNoConsume(n: nat, delay: nat)
    requires n >= 1
    ensures forall i :: 0 <= i < |Attempts(n, delay)| ==> !Attempts(n, delay)[i].Consume?
  {
    if n > 1 {
      AttemptsHaveNoConsume(n - 1, delay);
      var prev := Attempts(n - 1, delay);
      var log := Attempts(n, delay);
      assert log == prev + [Sleep(n * delay), Attempt(n)];
      forall i | 0 <= i < |log| ensures !log[i].Consume? {
        if i < |prev| {
          assert log[i] == prev[i];
        }
      }
    }
  }

  lemma {:induction false} AttemptPositions(n: nat, delay: nat)
    requires n >= 1
    ensures forall k :: 1 <= k <= n ==> Attempts(n, delay)[2 * k - 2] == Attempt(k)
  {
    if n > 1 {
      AttemptPositions(n - 1, delay);
      var prev := Attempts(n - 1, delay);
      var log := Attempts(n, delay);
      assert log == prev + [Sleep(n * delay), Attempt(n)];
      forall k | 1 <= k <= n ensures log[2 * k - 2] == Attempt(k) {
        if k < n {
          assert log[2 * k - 2] == prev[2 * k - 2];
        }
      }
    }
  }

  lemma {:induction false} SleepPositions(n: nat, delay: nat)
    requires n >= 1
    ensures forall k :: 2 <= k <= n ==> Attempts(n, delay)[2 * k - 3] == Sleep(k * delay)
  {
    if n > 1 {
      SleepPositions(n - 1, delay);
      var prev := Attempts(n - 1, delay);
      var log := Attempts(n, delay);
      assert log == prev + [Sleep(n * delay), Attempt(n)];
      forall k | 2 <= k <= n ensures log[2 * k - 3] == Sleep(k * delay) {
        if k < n {
          assert log[2 * k - 3] == prev[2 * k - 3];
        }
      }
    }
  }

  /** The attempt log event by event: attempt k sits at position 2k - 2, the sleep before it just in front. */
  lemma AttemptsShape(n: nat, delay: nat)
    requires n >= 1
    ensures forall i :: 0 <= i < |Attempts(n, delay)| ==> !Attempts(n, delay)[i].Consume?
    ensures forall k :: 1 <= k <= n ==> Attempts(n, delay)[2 * k - 2] == Attempt(k)
    ensures forall k :: 2 <= k <= n ==> Attempts(n, delay)[2 * k - 3] == Sleep(k * delay)
  {
    AttemptsHaveNoConsume(n, delay);
    AttemptPositions(n, delay);
    SleepPositions(n, delay);
  }

  /**
   * A run hands its result to the consumer exactly once, as its last
   * event; it makes exactly n attempts, the k-th preceded by a sleep of
   * k * delay when k > 1.
   */
  lemma RetryLogConsumesOnce(n: nat, delay: nat, result: Option<Channel>)
    requires n >= 1
    ensures var log := RetryLog(n, delay, result);
      && log[|log| - 1] == Consume(result)
      && (forall i :: 0 <= i < |log| - 1 ==> !log[i].Consume?)
      && (forall k :: 1 <= k <= n ==> log[2 * k - 2] == Attempt(k))
      && (forall k :: 2 <= k <= n ==> log[2 * k - 3] == Sleep(k * delay))
  {
    AttemptsShape(n, delay);
    var log := RetryLog(n, delay, result);
    assert forall i :: 0 <= i < |log| - 1 ==> log[i] == Attempts(n, delay)[i];
  }

  /**
   * `connect`: the callback loop, one iteration per completed attempt.
   * It returns the log of what happened and the number of attempts made.
   */
  method Connect(maxAttempts: nat, minStartTime: nat, outcome: nat -> Option<Channel>)
    returns (log: seq<ConnectEvent>, attempts: nat)
    ensures 1 <= attempts <= MostAttempts(maxAttempts)
    ensures log == RetryLog(attempts, minStartTime, outcome(attempts))
    ensures forall k :: 1 <= k < attempts ==> outcome(k).None?
    ensures outcome(attempts).None? ==> attempts == MostAttempts(maxAttempts)
  {
    var attemptCounter := 1;
    attempts := 1;
    log := [Attempt(1)];
    var current := outcome(1);
    var consumed := false;
    while !consumed
      invariant 1 <= attempts <= MostAttempts(maxAttempts)
      invariant current == outcome(attempts)
      invariant forall k :: 1 <= k < attempts ==> outcome(k).None?
      invariant !consumed ==> attemptCounter == attempts && log == Attempts(attempts, minStartTime)
      invariant consumed ==> log == RetryLog(attempts, minStartTime, current)
      invariant consumed && current.None? ==> attempts == MostAttempts(maxAttempts)
      decreases if consumed then 0 else MostAttempts(maxAttempts) + 1 - attemptCounter
    {
      if current.Some? {
        log := log + [Consume(current)];
        consumed := true;
      } else {
        attemptCounter := attemptCounter + 1;
        if attemptCounter > maxAttempts {
          log := log + [Consume(None)];
          consumed := true;
        } else {
          log := log + [Sleep(attemptCounter * minStartTime), Attempt(attemptCounter)];
          attempts := attemptCounter;
          current := outcome(attemptCounter);
        }
      }
    }
  }
}

=== FILE: decimal.dfy ===
/** Decimal text of non-negative integers, as `Integer.toString` writes it. */
module Decimal {

  predicate IsDigit(c: char) {
    '0' <= c <= '9'
  }

  predicate AllDigits(s: string) {
    forall i :: 0 <= i < |s| ==> IsDigit(s[i])
  }

  function DigitChar(d: nat): (c: char)
    requires d < 10
    ensures IsDigit(c) && c as int - '0' as int == d
  {
    ('0' as int + d) as char
  }

  function DigitValue(c: char): (d: nat)
    requires IsDigit(c)
    ensures d < 10
  {
    c as int - '0' as int
  }

  /** The decimal digits of `n`, most significant first, with no leading zero. */
  function ToDecimal(n: nat): (s: string)
    ensures 1 <= |s| && AllDigits(s)
    ensures (s[0] == '0') == (n == 0)
  {
    if n < 10 then [DigitChar(n)] else ToDecimal(n / 10) + [DigitChar(n % 10)]
  }

  /** The number a string of decimal digits denotes. */
  function ParseDecimal(s: string): nat
    requires AllDigits(s)
  {
    if s == [] then 0 else 10 * ParseDecimal(s[..|s| - 1]) + DigitValue(s[|s| - 1])
  }

  /** Reading back the digits `ToDecimal` writes gives the number again. */
  lemma {:induction false} ParseToDecimal(n: nat)
    ensures ParseDecimal(ToDecimal(n)) == n
  {
    if n >= 10 {
      var s := ToDecimal(n);
      assert s[..|s| - 1] == ToDecimal(n / 10);
      ParseToDecimal(n / 10);
    }
  }
}

=== FILE: forward_request.dfy ===
/**
 * The request the proxy sends to pub serve: the client's request with the
 * URI rewritten, keep-alive forced on and the `Host` header naming the
 * server channel's remote address.
 */
module ForwardRequest {
  import opened Wrappers
  import opened Decimal
  import opened PubServerTypes

  /** Method, protocol version, other headers and content: the parts the proxy passes on untouched. */
  datatype RequestRest = RequestRest(httpMethod: string, version: string, headers: seq<(string, string)>, content: seq<int>)

  /** An HTTP request; `keepAlive` is what `HttpHeaders.isKeepAlive` would report. */
  datatype Request = Request(uri: string, keepAlive: bool, host: Option<string>, rest: RequestRest)

  /** The `Host` header value for a server address: host address, a colon, the port in decimal. */
  function HostHeader(a: SocketAddress): string {
    a.host + [':'] + ToDecimal(a.port)
  }

  /** The position of the last `c` in `s`, if any. */
  function LastIndexOf(s: string, c: char): (r: Option<nat>)
    ensures r.Some? ==> r.value < |s| && s[r.value] == c && c !in s[r.value + 1..]
    ensures r.None? ==> c !in s
  {
    if s == [] then None
    else if s[|s| - 1] == c then Some(|s| - 1)
    else
      var r := LastIndexOf(s[..|s| - 1], c);
      assert s == s[..|s| - 1] + [s[|s| - 1]];
      r
  }

  /**
   * Reads a `Host` header value back into an address: the port is the
   * decimal text after the last colon, so hosts that contain colons
   * themselves (IPv6 literals) are read correctly.
   */
  function ParseHostHeader(h: string): Option<SocketAddress> {
    match LastIndexOf(h, ':')
    case None => None
    case Some(i) =>
      var digits := h[i + 1..];
      if digits != [] && AllDigits(digits) && ParseDecimal(digits) <= 0xFFFF then
        Some(SocketAddress(h[..i], ParseDecimal(digits)))
      else
        None
  }

  /** The `Host` header determines the server address it was written for. */
  lemma HostHeaderRoundTrip(a: SocketAddress)
    ensures ParseHostHeader(HostHeader(a)) == Some(a)
  {
    var h := HostHeader(a);
    var digits := ToDecimal(a.port);
    var i := |a.host|;
    assert h[i] == ':';
    assert h[i + 1..] == digits;
    assert ':' !in digits by {
      forall k | 0 <= k < |digits| ensures digits[k] != ':' {
        assert IsDigit(digits[k]);
      }
    }
    var r := LastIndexOf(h, ':');
    assert r.Some?;
    assert r.value == i;
    assert h[..i] == a.host;
    ParseToDecimal(a.port);
  }

  /**
   * The static `sendToServer`: the request written to a server channel
   * whose remote address is `server`.
   */
  function Forwarded(clientRequest: Request, pathToPubServe: string, server: SocketAddress): (r: Request)
    ensures r.uri == pathToPubServe && r.keepAlive
    ensures r.host == Some(HostHeader(server))
    ensures r.host.Some? && ParseHostHeader(r.host.value) == Some(server)
    ensures r.rest == clientRequest.rest
  {
    HostHeaderRoundTrip(server);
    clientRequest.(uri := pathToPubServe, keepAlive := true, host := Some(HostHeader(server)))
  }

  /**
   * The forwarded request depends on the client's request only through the
   * parts the proxy passes on: its own URI, keep-alive flag and host do not
   * matter, and forwarding a forwarded request again changes nothing.
   */
  lemma ForwardedIgnoresRewrittenParts(a: Request, b: Request, path: string, server: SocketAddress)
    requires a.rest == b.rest
    ensures Forwarded(a, path, server) == Forwarded(b, path, server)
    ensures Forwarded(Forwarded(a, path, server), path, server) == Forwarded(a, path, server)
  {
  }
}

=== FILE: java_text.dfy ===
/**
 * The Java string operations the manifest helpers rely on: `String.trim`,
 * `StringUtil.trimTrailing` and `String.indexOf`.
 */
module JavaText {

  /** The characters `String.trim` strips: every code point up to and including the space. */
  predicate Blank(c: char) {
    c <= ' '
  }

  /**
   * `Character.isWhitespace`, the test `StringUtil.trimTrailing` strips by,
   * as Java 9 and later define it (Unicode 6.3 on, without U+180E).
   */
  predicate IsWhitespace(c: char) {
    var n := c as int;
    || n == 0x20 || 0x09 <= n <= 0x0D || 0x1C <= n <= 0x1F
    || n == 0x1680 || 0x2000 <= n <= 0x2006 || 0x2008 <= n <= 0x200A
    || n == 0x2028 || n == 0x2029 || n == 0x205F || n == 0x3000
  }

  /** Where `trim` stops scanning from the left, starting at `i`: the first non-blank position, or the length. */
  function SkipBlanks(s: string, i: nat): (k: nat)
    requires i <= |s|
    ensures i <= k <= |s|
    ensures forall j :: i <= j < k ==> Blank(s[j])
    ensures k < |s| ==> !Blank(s[k])
    decreases |s| - i
  {
    if i == |s| || !Blank(s[i]) then i else SkipBlanks(s, i + 1)
  }

  /** Where `trim` stops scanning from the right, starting at `e` and never passing `start`. */
  function SkipBlanksBack(s: string, start: nat, e: nat): (r: nat)
    requires start <= e <= |s|
    ensures start <= r <= e
    ensures forall j :: r <= j < e ==> Blank(s[j])
    ensures start < r ==> !Blank(s[r - 1])
    decreases e
  {
    if e == start || !Blank(s[e - 1]) then e else SkipBlanksBack(s, start, e - 1)
  }

  /** The first non-blank position of `s`, or its length. */
  function TrimStart(s: string): (k: nat)
    ensures k <= |s|
    ensures forall i :: 0 <= i < k ==> Blank(s[i])
    ensures k < |s| ==> !Blank(s[k])
  {
    SkipBlanks(s, 0)
  }

  /** The end of the last non-blank character of `s` at or after `start`, or `start`. */
  function TrimEnd(s: string, start: nat): (e: nat)
    requires start <= |s|
    ensures start <= e <= |s|
    ensures forall i :: e <= i < |s| ==> Blank(s[i])
    ensures start < e ==> !Blank(s[e - 1])
  {
    SkipBlanksBack(s, start, |s|)
  }

  /** `String.trim`. */
  function Trim(s: string): string {
    s[TrimStart(s)..TrimEnd(s, TrimStart(s))]
  }

  /** The split of `s` at `k` and `e` into a blank prefix, the middle and a blank suffix. */
  lemma BlankFramed(s: string, k: nat, e: nat)
    requires k <= e <= |s|
    requires forall i :: 0 <= i < k ==> Blank(s[i])
    requires forall i :: e <= i < |s| ==> Blank(s[i])
    requires k < e ==> !Blank(s[k]) && !Blank(s[e - 1])
    ensures s == s[..k] + s[k..e] + s[e..]
    ensures s[k..e] != [] ==> !Blank(s[k..e][0]) && !Blank(s[k..e][e - k - 1])
    ensures s[k..e] == [] ==> forall i :: 0 <= i < |s| ==> Blank(s[i])
  {
    assert s[..k] + s[k..e] == s[..e];
    assert s[..e] + s[e..] == s;
  }

  /**
   * What `Trim` yields: `s` is a blank prefix, the result, and a blank
   * suffix, and the result neither starts nor ends with a blank.
   */
  lemma TrimSplits(s: string)
    ensures TrimStart(s) + |Trim(s)| <= |s|
    ensures s == s[..TrimStart(s)] + Trim(s) + s[TrimStart(s) + |Trim(s)|..]
    ensures forall i :: 0 <= i < TrimStart(s) ==> Blank(s[i])
    ensures forall i :: TrimStart(s) + |Trim(s)| <= i < |s| ==> Blank(s[i])
    ensures Trim(s) != [] ==> !Blank(Trim(s)[0]) && !Blank(Trim(s)[|Trim(s)| - 1])
    ensures Trim(s) == [] ==> forall i :: 0 <= i < |s| ==> Blank(s[i])
  {
    var k := TrimStart(s);
    var e := TrimEnd(s, k);
    assert Trim(s) == s[k..e];
    BlankFramed(s, k, e);
  }

  /** Trimming a trimmed string changes nothing. */
  lemma TrimIdempotent(s: string)
    ensures Trim(Trim(s)) == Trim(s)
  {
    TrimSplits(s);
    var t := Trim(s);
    if t != [] {
      assert TrimStart(t) == 0;
      assert TrimEnd(t, 0) == |t|;
    }
  }

  /** `StringUtil.trimTrailing`: the longest prefix that does not end in whitespace. */
  function TrimTrailing(s: string): (t: string)
    ensures t <= s
    ensures forall i :: |t| <= i < |s| ==> IsWhitespace(s[i])
    ensures t == [] || !IsWhitespace(t[|t| - 1])
  {
    if s == [] || !IsWhitespace(s[|s| - 1]) then s else TrimTrailing(s[..|s| - 1])
  }

  /** Whitespace added at the end does not change what `trimTrailing` keeps. */
  lemma {:induction false} TrimTrailingIgnoresTrailingWhitespace(s: string, ws: string)
    requires forall i :: 0 <= i < |ws| ==> IsWhitespace(ws[i])
    ensures TrimTrailing(s + ws) == TrimTrailing(s)
    decreases |ws|
  {
    if ws != [] {
      assert (s + ws)[..|s + ws| - 1] == s + ws[..|ws| - 1];
      TrimTrailingIgnoresTrailingWhitespace(s, ws[..|ws| - 1]);
    } else {
      assert s + ws == s;
    }
  }

  predicate OccursAt(text: string, sub: string, i: int) {
    0 <= i && i + |sub| <= |text| && text[i..i + |sub|] == sub
  }

  /**
   * The first occurrence of `sub` in `text` at or after `from`, or -1.  For
   * `from <= |text|` this is `text.indexOf(sub, from)`; beyond the end Java
   * still finds an empty `sub` at the length, which this does not, and only
   * `from = 0` is ever used.
   */
  function IndexOfFrom(text: string, sub: string, from: nat): (r: int)
    ensures r == -1 || (from <= r && OccursAt(text, sub, r))
    ensures forall i :: from <= i && (r == -1 || i < r) ==> !OccursAt(text, sub, i)
    decreases |text| + 1 - from
  {
    if from + |sub| > |text| then -1
    else if text[from..from + |sub|] == sub then from
    else IndexOfFrom(text, sub, from + 1)
  }

  /** `text.indexOf(sub)`. */
  function IndexOf(text: string, sub: string): int {
    IndexOfFrom(text, sub, 0)
  }
}

=== FILE: manifest.dfy ===
/**
 * The header-editing helpers of `OsgiPsiUtil` over an abstract manifest:
 * a file is a sequence of sections, the first of which is the main
 * section; a section is a sequence of children, some of them headers.
 */
module Manifest {
  import opened Wrappers
  import opened JavaText

  /**
   * A header: its name, the text before its value, and, when it has a
   * value, the text from the value's start to the end of the header.
   */
  datatype Header = Header(name: string, head: string, value: Option<string>)

  /** A child of a section: a header, or anything else (blank lines, for one). */
  datatype Element = HeaderElement(header: Header) | OtherElement(text: string)

  datatype Section = Section(children: seq<Element>)

  datatype ManifestFile = ManifestFile(sections: seq<Section>)

  /** The header's whole text. */
  function Text(h: Header): string {
    h.head + if h.value.Some? then h.value.value else ""
  }

  // ---------------------------------------------------------------------
  // Header text

  /** The text template of `createHeader`: name, colon, space, value, newline. */
  function HeaderText(name: string, value: string): string {
    name + ": " + value + "\n"
  }

  /** The position of the first `c` in `s` at or after `i`, if any. */
  function FirstIndexOf(s: string, c: char, i: nat): (r: Option<nat>)
    requires i <= |s|
    ensures r.Some? ==> i <= r.value < |s| && s[r.value] == c
    ensures r.Some? ==> forall j :: i <= j < r.value ==> s[j] != c
    ensures r.None? ==> forall j :: i <= j < |s| ==> s[j] != c
    decreases |s| - i
  {
    if i == |s| then None
    else if s[i] == c then Some(i)
    else FirstIndexOf(s, c, i + 1)
  }

  /**
   * Reads one header line: the name runs up to the first colon, a space
   * follows, and the value runs up to the closing newline.
   */
  function ParseHeaderText(t: string): Option<(string, string)> {
    if t == [] || t[|t| - 1] != '\n' then None
    else
      match FirstIndexOf(t, ':', 0)
      case None => None
      case Some(i) =>
        if i + 2 <= |t| - 1 && t[i + 1] == ' ' then Some((t[..i], t[i + 2..|t| - 1])) else None
  }

  /** A header line written from a name without colons reads back as that name and value. */
  lemma HeaderTextRoundTrip(name: string, value: string)
    requires ':' !in name
    ensures ParseHeaderText(HeaderText(name, value)) == Some((name, value))
  {
    var t := HeaderText(name, value);
    assert t[|name|] == ':' && t[..|name|] == name;
    assert FirstIndexOf(t, ':', 0) == Some(|name|);
    assert t[|name| + 2..|t| - 1] == value;
  }

  /**
   * `createHeader`: the header of the text `HeaderText(name, value)`.  The
   * manifest parser is not part of this model; the header's value is taken
   * to start right after the colon and space.
   */
  function CreateHeader(name: string, value: string): (h: Header)
    ensures h.name == name
    ensures Text(h) == HeaderText(name, value)
    ensures h.value == Some(value + "\n")
  {
    Header(name, name + ": ", Some(value + "\n"))
  }

  /** `isHeader`: the element exists, is a header, and has the given name. */
  predicate IsHeader(element: Option<Element>, name: string) {
    element.Some? && element.value.HeaderElement? && element.value.header.name == name
  }

  // ---------------------------------------------------------------------
  // Looking headers up

  /** The position of the first child at or after `i` that is a header with the given name. */
  function FindHeaderFrom(children: seq<Element>, name: string, i: nat): (r: Option<nat>)
    requires i <= |children|
    ensures r.Some? ==> i <= r.value < |children| && IsHeader(Some(children[r.value]), name)
    ensures r.Some? ==> forall j :: i <= j < r.value ==> !IsHeader(Some(children[j]), name)
    ensures r.None? ==> forall j :: i <= j < |children| ==> !IsHeader(Some(children[j]), name)
    decreases |children| - i
  {
    if i == |children| then None
    else if IsHeader(Some(children[i]), name) then Some(i)
    else FindHeaderFrom(children, name, i + 1)
  }

  /** The position of the first child that is a header with the given name. */
  function FindHeader(children: seq<Element>, name: string): (r: Option<nat>)
    ensures r.Some? ==> r.value < |children| && IsHeader(Some(children[r.value]), name)
    ensures r.Some? ==> forall j :: 0 <= j < r.value ==> !IsHeader(Some(children[j]), name)
    ensures r.None? ==> forall j :: 0 <= j < |children| ==> !IsHeader(Some(children[j]), name)
  {
    FindHeaderFrom(children, name, 0)
  }

  /** The headers among the children, in order. */
  function HeadersOf(children: seq<Element>): seq<Header> {
    if children == [] then []
    else if children[0].HeaderElement? then [children[0].header] + HeadersOf(children[1..])
    else HeadersOf(children[1..])
  }

  /**
   * Where `addHeader` puts a new header in a section that has one: right
   * after the last header, or before the first child when there is no
   * header.
   */
  function InsertPosition(children: seq<Element>): (p: nat)
    ensures p <= |children|
    ensures p > 0 ==> children[p - 1].HeaderElement?
    ensures forall j :: p <= j < |children| ==> !children[j].HeaderElement?
  {
    if children == [] || children[|children| - 1].HeaderElement? then |children|
    else InsertPosition(children[..|children| - 1])
  }

  /** `getHeaders`: the headers of the main section. */
  function Headers(m: ManifestFile): seq<Header> {
    if m.sections == [] then [] else HeadersOf(m.sections[0].children)
  }

  /** `getHeader`: the first header of the main section with the given name. */
  function GetHeader(m: ManifestFile, name: string): (r: Option<Header>)
    ensures r.Some? ==> r.value.name == name
  {
    if m.sections == [] then None
    else
      match FindHeader(m.sections[0].children, name)
      case None => None
      case Some(i) => Some(m.sections[0].children[i].header)
  }

  /** The file with the main section's children replaced. */
  function WithMainChildren(m: ManifestFile, children: seq<Element>): ManifestFile
    requires m.sections != []
  {
    ManifestFile([Section(children)] + m.sections[1..])
  }

  // ---------------------------------------------------------------------
  // Editing

  /**
   * `addHeader`: with no main section the new header's section is appended
   * to the file; with a main section that has no headers the header goes
   * before its first child; otherwise it goes right after the last header.
   * Taking the new header out again gives back the old main section, and
   * the other sections are untouched.  `AddHeaderAppends` says what this
   * does to the list of headers.
   */
  function AddHeader(m: ManifestFile, h: Header): (r: ManifestFile)
    ensures m.sections == [] ==> r.sections == [Section([HeaderElement(h)])]
    ensures m.sections != [] ==> |r.sections| == |m.sections| && r.sections[1..] == m.sections[1..]
    ensures m.sections != [] ==>
      var c := r.sections[0].children;
      var p := InsertPosition(m.sections[0].children);
      p < |c| && c[p] == HeaderElement(h) && c[..p] + c[p + 1..] == m.sections[0].children
  {
    if m.sections == [] then ManifestFile(m.sections + [Section([HeaderElement(h)])])
    else
      var children := m.sections[0].children;
      var p := InsertPosition(children);
      WithMainChildren(m, children[..p] + [HeaderElement(h)] + children[p..])
  }

  /**
   * Replace-or-add, shared by `setHeader` and `appendToHeader`: the first
   * header named `name` of the main section is replaced in place by `h`,
   * or, when there is none, `h` is added.
   */
  function PutHeader(m: ManifestFile, name: string, h: Header): ManifestFile {
    if m.sections == [] then AddHeader(m, h)
    else
      match FindHeader(m.sections[0].children, name)
      case Some(i) => WithMainChildren(m, m.sections[0].children[i := HeaderElement(h)])
      case None => AddHeader(m, h)
  }

  /** `setHeader`. */
  function SetHeader(m: ManifestFile, name: string, value: string): ManifestFile {
    PutHeader(m, name, CreateHeader(name, value))
  }

  /**
   * The value `appendToHeader` writes: the old value text with trailing
   * whitespace trimmed, then a comma, newline and space, then the new value;
   * just the new value when there is no previous value or it trims to nothing.
   */
  function AppendedValue(previous: Option<Header>, value: string): string {
    if previous.Some? && previous.value.value.Some? then
      var oldText := TrimTrailing(previous.value.value.value);
      if oldText == [] then value else oldText + ",\n " + value
    else
      value
  }

  /** `appendToHeader`. */
  function AppendToHeader(m: ManifestFile, name: string, value: string): ManifestFile {
    PutHeader(m, name, CreateHeader(name, AppendedValue(GetHeader(m, name), value)))
  }

  // ---------------------------------------------------------------------
  // Lemmas about the children of a section

  lemma {:induction false} HeadersOfNone(children: seq<Element>)
    ensures HeadersOf(children) == [] <==> forall j :: 0 <= j < |children| ==> !children[j].HeaderElement?
  {
    if children != [] {
      HeadersOfNone(children[1..]);
      assert forall j :: 1 <= j < |children| ==> children[j] == children[1..][j - 1];
    }
  }

  lemma {:induction false} HeadersOfConcat(a: seq<Element>, b: seq<Element>)
    ensures HeadersOf(a + b) == HeadersOf(a) + HeadersOf(b)
  {
    if a != [] {
      assert (a + b)[1..] == a[1..] + b;
      HeadersOfConcat(a[1..], b);
    } else {
      assert a + b == b;
    }
  }

  /**
   * When two child lists agree on which positions are headers named `name`,
   * `FindHeader` finds the same position in both.
   */
  lemma FindHeaderSameMatches(c1: seq<Element>, c2: seq<Element>, name: string)
    requires |c1| == |c2|
    requires forall j :: 0 <= j < |c1| ==> IsHeader(Some(c1[j]), name) == IsHeader(Some(c2[j]), name)
    ensures FindHeader(c1, name) == FindHeader(c2, name)
  {
  }

  /** A matching position with no match before it is what `FindHeader` finds. */
  lemma FindHeaderFirstMatch(c: seq<Element>, name: string, j: nat)
    requires j < |c| && IsHeader(Some(c[j]), name)
    requires forall i :: 0 <= i < j ==> !IsHeader(Some(c[i]), name)
    ensures FindHeader(c, name) == Some(j)
  {
  }

  /**
   * Inserting an element at `pos`: a header found before `pos` stays found;
   * otherwise the inserted element is found when it matches, and failing
   * that the old match, one place further on.
   */
  lemma FindHeaderAfterInsert(children: seq<Element>, pos: nat, e: Element, name: string)
    requires pos <= |children|
    ensures var c := children[..pos] + [e] + children[pos..];
      var previous := FindHeader(children, name);
      FindHeader(c, name) ==
        if previous.Some? && previous.value < pos then previous
        else if IsHeader(Some(e), name) then Some(pos)
        else if previous.Some? then Some(previous.value + 1)
        else None
  {
    var c := children[..pos] + [e] + children[pos..];
    var previous := FindHeader(children, name);
    assert |c| == |children| + 1;
    assert forall i :: 0 <= i < pos ==> c[i] == children[i];
    assert c[pos] == e;
    assert forall i :: pos < i < |c| ==> c[i] == children[i - 1];
    if previous.Some? && previous.value < pos {
      FindHeaderFirstMatch(c, name, previous.value);
    } else if IsHeader(Some(e), name) {
      FindHeaderFirstMatch(c, name, pos);
    } else if previous.Some? {
      var j := previous.value;
      forall i | 0 <= i < j + 1 ensures !IsHeader(Some(c[i]), name) {
        if pos < i {
          assert c[i] == children[i - 1];
        }
      }
      FindHeaderFirstMatch(c, name, j + 1);
    } else {
      forall i | 0 <= i < |c| ensures !IsHeader(Some(c[i]), name) {
        if pos < i {
          assert c[i] == children[i - 1];
        }
      }
    }
  }

  // ---------------------------------------------------------------------
  // What the editing operations promise

  /** A new header always ends up last among the main section's headers, and the others keep their order. */
  lemma AddHeaderAppends(m: ManifestFile, h: Header)
    ensures Headers(AddHeader(m, h)) == Headers(m) + [h]
  {
    if m.sections != [] {
      var children := m.sections[0].children;
      var p := InsertPosition(children);
      InsertAtPositionAppends(children, h);
      assert AddHeader(m, h).sections[0].children == children[..p] + [HeaderElement(h)] + children[p..];
    } else {
      assert HeadersOf([HeaderElement(h)]) == [h];
    }
  }

  lemma InsertAtPositionAppends(children: seq<Element>, h: Header)
    ensures var p := InsertPosition(children);
      HeadersOf(children[..p] + [HeaderElement(h)] + children[p..]) == HeadersOf(children) + [h]
  {
    var e := HeaderElement(h);
    var p := InsertPosition(children);
    var pre := children[..p];
    var post := children[p..];
    assert HeadersOf(post) == [] by {
      assert forall j :: 0 <= j < |post| ==> post[j] == children[p + j];
      HeadersOfNone(post);
    }
    assert HeadersOf(children) == HeadersOf(pre) by {
      assert children == pre + post;
      HeadersOfConcat(pre, post);
    }
    assert HeadersOf(pre + [e] + post) == HeadersOf(pre) + [h] by {
      assert HeadersOf([e]) == [h];
      HeadersOfConcat(pre + [e], post);
      HeadersOfConcat(pre, [e]);
    }
  }

  /**
   * After `PutHeader`, looking up `name` gives the new header, and the
   * sections after the main one are untouched.
   */
  lemma PutHeaderGetsNew(m: ManifestFile, name: string, h: Header)
    requires h.name == name
    ensures GetHeader(PutHeader(m, name, h), name) == Some(h)
    ensures m.sections != [] ==> PutHeader(m, name, h).sections[1..] == m.sections[1..]
  {
    var r := PutHeader(m, name, h);
    if m.sections == [] {
      assert r.sections[0].children == [HeaderElement(h)];
    } else {
      var c := m.sections[0].children;
      match FindHeader(c, name)
      case Some(i) =>
        var c' := c[i := HeaderElement(h)];
        assert r.sections[0].children == c';
        assert forall j :: 0 <= j < i ==> c'[j] == c[j];
        FindHeaderFirstMatch(c', name, i);
      case None =>
        var pos := InsertPosition(c);
        assert r.sections[0].children == c[..pos] + [HeaderElement(h)] + c[pos..];
        FindHeaderAfterInsert(c, pos, HeaderElement(h), name);
    }
  }

  /** After `PutHeader`, looking up any other name gives what it gave before. */
  lemma PutHeaderKeepsOthers(m: ManifestFile, name: string, h: Header, other: string)
    requires h.name == name && other != name
    ensures GetHeader(PutHeader(m, name, h), other) == GetHeader(m, other)
  {
    var r := PutHeader(m, name, h);
    if m.sections != [] {
      var c := m.sections[0].children;
      match FindHeader(c, name)
      case Some(i) =>
        var c' := c[i := HeaderElement(h)];
        assert r.sections[0].children == c';
        FindHeaderSameMatches(c, c', other);
      case None =>
        var pos := InsertPosition(c);
        var c' := c[..pos] + [HeaderElement(h)] + c[pos..];
        assert r.sections[0].children == c';
        FindHeaderAfterInsert(c, pos, HeaderElement(h), other);
        var o := FindHeader(c, other);
        if o.Some? {
          assert c'[o.value] == c[o.value];
        }
    }
  }

  /** The position, in the list of headers, of the child at position `i`. */
  function HeaderRank(children: seq<Element>, i: nat): nat
    requires i <= |children|
  {
    |HeadersOf(children[..i])|
  }

  /**
   * Replacing the header at child position `i` replaces, in the list of
   * headers, exactly the entry at that child's rank.
   */
  lemma ReplaceHeaderAt(c: seq<Element>, i: nat, h: Header)
    requires i < |c| && c[i].HeaderElement?
    ensures var j := HeaderRank(c, i);
      && j < |HeadersOf(c)| && HeadersOf(c)[j] == c[i].header
      && HeadersOf(c[i := HeaderElement(h)]) == HeadersOf(c)[j := h]
  {
    var pre := c[..i];
    var post := c[i + 1..];
    assert c == pre + [c[i]] + post;
    assert c[i := HeaderElement(h)] == pre + [HeaderElement(h)] + post;
    assert HeadersOf([c[i]]) == [c[i].header];
    assert HeadersOf([HeaderElement(h)]) == [h];
    HeadersOfConcat(pre + [c[i]], post);
    HeadersOfConcat(pre, [c[i]]);
    HeadersOfConcat(pre + [HeaderElement(h)], post);
    HeadersOfConcat(pre, [HeaderElement(h)]);
  }

  /**
   * Replace-or-add on a name that has a header: the header `getHeader`
   * gives is replaced where it stands, the list of headers keeps its length
   * and changes only there, and the other sections are untouched.
   */
  lemma PutHeaderReplacesInPlace(m: ManifestFile, name: string, h: Header)
    requires GetHeader(m, name).Some?
    ensures var r := PutHeader(m, name, h);
      var c := m.sections[0].children;
      var i := FindHeader(c, name).value;
      var j := HeaderRank(c, i);
      && |r.sections| == |m.sections| && r.sections[1..] == m.sections[1..]
      && |r.sections[0].children| == |c| && r.sections[0].children[i] == HeaderElement(h)
      && (forall k :: 0 <= k < |c| && k != i ==> r.sections[0].children[k] == c[k])
      && j < |Headers(m)| && Headers(m)[j] == GetHeader(m, name).value
      && Headers(r) == Headers(m)[j := h]
  {
    var c := m.sections[0].children;
    var i := FindHeader(c, name).value;
    assert PutHeader(m, name, h).sections[0].children == c[i := HeaderElement(h)];
    ReplaceHeaderAt(c, i, h);
  }

  /** Replace-or-add on a name that has no header adds it as `addHeader` does. */
  lemma PutHeaderAddsWhenMissing(m: ManifestFile, name: string, h: Header)
    requires GetHeader(m, name).None?
    ensures PutHeader(m, name, h) == AddHeader(m, h)
  {
  }

  /** `setHeader` of a name that has no header adds the created header as `addHeader` does. */
  lemma SetHeaderAddsWhenMissing(m: ManifestFile, name: string, value: string)
    requires GetHeader(m, name).None?
    ensures SetHeader(m, name, value) == AddHeader(m, CreateHeader(name, value))
    ensures Headers(SetHeader(m, name, value)) == Headers(m) + [CreateHeader(name, value)]
  {
    PutHeaderAddsWhenMissing(m, name, CreateHeader(name, value));
    AddHeaderAppends(m, CreateHeader(name, value));
  }

  /**
   * `appendToHeader` of a name that has no header adds a header with just
   * the new value, as `addHeader` does.
   */
  lemma AppendToHeaderAddsWhenMissing(m: ManifestFile, name: string, value: string)
    requires GetHeader(m, name).None?
    ensures AppendToHeader(m, name, value) == AddHeader(m, CreateHeader(name, value))
    ensures Headers(AppendToHeader(m, name, value)) == Headers(m) + [CreateHeader(name, value)]
  {
    PutHeaderAddsWhenMissing(m, name, CreateHeader(name, value));
    AddHeaderAppends(m, CreateHeader(name, value));
  }

  /**
   * `setHeader`: afterwards the header of that name is the created one;
   * headers of other names are as they were.
   */
  lemma SetHeaderThenGet(m: ManifestFile, name: string, value: string, other: string)
    requires other != name
    ensures GetHeader(SetHeader(m, name, value), name) == Some(CreateHeader(name, value))
    ensures GetHeader(SetHeader(m, name, value), other) == GetHeader(m, other)
  {
    PutHeaderGetsNew(m, name, CreateHeader(name, value));
    PutHeaderKeepsOthers(m, name, CreateHeader(name, value), other);
  }

  /** `setHeader` replaces in place: when the header exists, the headers keep their number and order. */
  lemma SetHeaderReplacesInPlace(m: ManifestFile, name: string, value: string)
    requires GetHeader(m, name).Some?
    ensures var r := SetHeader(m, name, value);
      var c := m.sections[0].children;
      var i := FindHeader(c, name).value;
      var j := HeaderRank(c, i);
      && |r.sections| == |m.sections| && r.sections[1..] == m.sections[1..]
      && |r.sections[0].children| == |c| && r.sections[0].children[i] == HeaderElement(CreateHeader(name, value))
      && (forall k :: 0 <= k < |c| && k != i ==> r.sections[0].children[k] == c[k])
      && j < |Headers(m)| && Headers(m)[j] == GetHeader(m, name).value
      && Headers(r) == Headers(m)[j := CreateHeader(name, value)]
  {
    PutHeaderReplacesInPlace(m, name, CreateHeader(name, value));
  }

  /**
   * `appendToHeader` on an existing header replaces it in place, like
   * `setHeader`: the header `getHeader` gave is the only one that changes,
   * and the other sections are untouched.
   */
  lemma AppendToHeaderReplacesInPlace(m: ManifestFile, name: string, value: string)
    requires GetHeader(m, name).Some?
    ensures var r := AppendToHeader(m, name, value);
      var c := m.sections[0].children;
      var i := FindHeader(c, name).value;
      var j := HeaderRank(c, i);
      && |r.sections| == |m.sections| && r.sections[1..] == m.sections[1..]
      && |r.sections[0].children| == |c| && r.sections[0].children[i] == HeaderElement(CreateHeader(name, AppendedValue(GetHeader(m, name), value)))
      && (forall k :: 0 <= k < |c| && k != i ==> r.sections[0].children[k] == c[k])
      && j < |Headers(m)| && Headers(m)[j] == GetHeader(m, name).value
      && Headers(r) == Headers(m)[j := CreateHeader(name, AppendedValue(GetHeader(m, name), value))]
  {
    PutHeaderReplacesInPlace(m, name, CreateHeader(name, AppendedValue(GetHeader(m, name), value)));
  }

  /**
   * After `appendToHeader` the header of that name carries the appended
   * value, and headers of other names are as they were.
   */
  lemma AppendToHeaderThenGet(m: ManifestFile, name: string, value: string, other: string)
    requires other != name
    ensures GetHeader(AppendToHeader(m, name, value), name) ==
      Some(CreateHeader(name, AppendedValue(GetHeader(m, name), value)))
    ensures GetHeader(AppendToHeader(m, name, value), other) == GetHeader(m, other)
  {
    var h := CreateHeader(name, AppendedValue(GetHeader(m, name), value));
    PutHeaderGetsNew(m, name, h);
    PutHeaderKeepsOthers(m, name, h, other);
  }

  /** Setting the same value twice is the same as setting it once. */
  lemma SetHeaderIdempotent(m: ManifestFile, name: string, value: string)
    ensures SetHeader(SetHeader(m, name, value), name, value) == SetHeader(m, name, value)
  {
    var h := CreateHeader(name, value);
    var r := SetHeader(m, name, value);
    PutHeaderGetsNew(m, name, h);
    var i := FindHeader(r.sections[0].children, name).value;
    assert r.sections[0].children[i] == HeaderElement(h);
    assert r.sections[0].children[i := HeaderElement(h)] == r.sections[0].children;
  }

  /**
   * `appendToHeader` on a header made by `setHeader` with value `a`: the
   * new value is `a` without trailing whitespace, then ",\n ", then `b`, or
   * just `b` when `a` is all whitespace.
   */
  lemma AppendAfterSet(m: ManifestFile, name: string, a: string, b: string)
    ensures var joined := if TrimTrailing(a) == [] then b else TrimTrailing(a) + ",\n " + b;
      GetHeader(AppendToHeader(SetHeader(m, name, a), name, b), name) == Some(CreateHeader(name, joined))
  {
    var m1 := SetHeader(m, name, a);
    PutHeaderGetsNew(m, name, CreateHeader(name, a));
    TrimTrailingIgnoresTrailingWhitespace(a, "\n");
    assert AppendedValue(GetHeader(m1, name), b) ==
      if TrimTrailing(a) == [] then b else TrimTrailing(a) + ",\n " + b;
    PutHeaderGetsNew(m1, name, CreateHeader(name, AppendedValue(GetHeader(m1, name), b)));
  }

  /** With no header of that name, `appendToHeader` is `setHeader`. */
  lemma AppendToMissingHeaderSets(m: ManifestFile, name: string, value: string)
    requires GetHeader(m, name).None?
    ensures AppendToHeader(m, name, value) == SetHeader(m, name, value)
  {
  }
}

=== FILE: ordered_sets.dfy ===
/**
 * A Java hash set seen through its iterator: a sequence without duplicates,
 * listed in iteration order.  `Add` and `Remove` are `Set.add` and
 * `Set.remove`.  The iteration order is taken to be insertion order, so a
 * new element is placed last; a real hash set iterates in hash order.
 */
module OrderedSets {

  predicate NoDuplicates<T(==, !new)>(xs: seq<T>) {
    forall i, j :: 0 <= i < j < |xs| ==> xs[i] != xs[j]
  }

  /** `Set.add`: no change when the element is already present. */
  function Add<T(==, !new)>(xs: seq<T>, x: T): (r: seq<T>)
    ensures forall y :: y in r <==> y in xs || y == x
    ensures x in xs ==> r == xs
    ensures NoDuplicates(xs) ==> NoDuplicates(r)
  {
    if x in xs then xs else xs + [x]
  }

  /**
   * `Set.remove`: every other element keeps its place in the iteration
   * order (`RemoveAt`).
   */
  function Remove<T(==, !new)>(xs: seq<T>, x: T): (r: seq<T>)
    ensures forall y :: y in r <==> y in xs && y != x
    ensures x !in xs ==> r == xs
    ensures NoDuplicates(xs) ==> NoDuplicates(r)
    ensures |r| <= |xs|
  {
    if xs == [] then []
    else if xs[0] == x then Remove(xs[1..], x)
    else
      var rest := Remove(xs[1..], x);
      assert NoDuplicates(xs) ==> xs[0] !in xs[1..] && NoDuplicates(xs[1..]) by {
        if NoDuplicates(xs) {
          forall i, j | 0 <= i < j < |xs| - 1 ensures xs[1..][i] != xs[1..][j] {
            assert xs[1..][i] == xs[i + 1] && xs[1..][j] == xs[j + 1];
          }
        }
      }
      [xs[0]] + rest
  }

  /** The tail of a duplicate-free sequence is duplicate-free and lacks the head. */
  lemma TailNoDuplicates<T(!new)>(xs: seq<T>)
    requires xs != [] && NoDuplicates(xs)
    ensures xs[0] !in xs[1..] && NoDuplicates(xs[1..])
  {
    forall i, j | 0 <= i < j < |xs| - 1 ensures xs[1..][i] != xs[1..][j] {
      assert xs[1..][i] == xs[i + 1] && xs[1..][j] == xs[j + 1];
    }
  }

  /**
   * In a duplicate-free sequence, removing the element at position `k` cuts
   * out that one position and leaves the order of the others as it was.
   */
  lemma {:induction false} RemoveAt<T(!new)>(xs: seq<T>, x: T, k: nat)
    requires NoDuplicates(xs) && k < |xs| && xs[k] == x
    ensures Remove(xs, x) == xs[..k] + xs[k + 1..]
  {
    var tail := xs[1..];
    if k == 0 {
      assert x !in tail by { TailNoDuplicates(xs); }
      assert Remove(xs, x) == Remove(tail, x) == tail;
      assert xs[..0] + xs[1..] == tail;
    } else {
      assert xs[0] != x;
      assert tail[k - 1] == x;
      assert NoDuplicates(tail) by { TailNoDuplicates(xs); }
      RemoveAt(tail, x, k - 1);
      assert Remove(xs, x) == [xs[0]] + (tail[..k - 1] + tail[k..]);
      assert [xs[0]] + (tail[..k - 1] + tail[k..]) == xs[..k] + xs[k + 1..];
    }
  }
}

=== FILE: pub_server.dfy ===
/**
 * The connection-routing state of the pub serve proxy and the callbacks
 * that change it.  Each callback is one atomic step from a state to a new
 * state plus the outputs it emits: bad-gateway responses, messages passed
 * on to clients, messages released, and requests written to pub serve.
 */
module PubServer {
  import opened Wrappers
  import opened OrderedSets
  import opened PubServerTypes
  import opened ForwardRequest

  /**
   * The four registries: `serverToClient` maps a busy server channel to the
   * client context waiting on it; `clientToServers` is the set-valued
   * relation from a client context to the server channels it has used;
   * `free` is the pool of idle server channels; `addresses` maps a served
   * directory to the address of its pub serve process.
   */
  datatype State = State(
    serverToClient: map<Channel, Context>,
    clientToServers: map<Context, seq<Channel>>,
    free: seq<Channel>,
    addresses: map<ServedDir, SocketAddress>)

  const Initial: State := State(map[], map[], [], map[])

  datatype Output =
    | BadGateway(client: ClientId)
    | Forward(client: ClientId, message: Message)
    | Release(message: Message)
    | Write(channel: Channel, request: Request)

  /** The new state after a callback and what the callback emitted, in order. */
  datatype Step = Step(state: State, out: seq<Output>)

  /** A connection attempt still under way, with what is needed to finish the request. */
  datatype PendingConnect = PendingConnect(client: ClientId, request: Request, path: string, address: SocketAddress)

  /** The outcome of routing one request: the step, and the connection attempt it started, if any. */
  datatype Routed = Routed(step: Step, pending: Option<PendingConnect>)

  // ---------------------------------------------------------------------
  // The client-to-servers relation, a `MultiMap` with set values

  /** `MultiMap.get`: an absent key has no values. */
  function ServersOf(rel: map<Context, seq<Channel>>, ctx: Context): seq<Channel> {
    if ctx in rel then rel[ctx] else []
  }

  /** `MultiMap.putValue`. */
  function PutValue(rel: map<Context, seq<Channel>>, ctx: Context, ch: Channel): (r: map<Context, seq<Channel>>)
    ensures forall x :: x in ServersOf(r, ctx) <==> x in ServersOf(rel, ctx) || x == ch
    ensures forall k :: k != ctx ==> ServersOf(r, k) == ServersOf(rel, k)
    ensures r.Keys == rel.Keys + {ctx}
  {
    rel[ctx := Add(ServersOf(rel, ctx), ch)]
  }

  /** `MultiMap.remove(key, value)`: a key left without values is dropped. */
  function RemoveValue(rel: map<Context, seq<Channel>>, ctx: Context, ch: Channel): (r: map<Context, seq<Channel>>)
    ensures forall x :: x in ServersOf(r, ctx) <==> x in ServersOf(rel, ctx) && x != ch
    ensures forall k :: k != ctx ==> ServersOf(r, k) == ServersOf(rel, k)
    ensures r.Keys <= rel.Keys
  {
    if ctx !in rel then rel
    else
      var rest := Remove(rel[ctx], ch);
      if rest == [] then rel - {ctx} else rel[ctx := rest]
  }

  // ---------------------------------------------------------------------
  // The invariant

  /** No idle channel is also busy for a client. */
  ghost predicate FreeDisjoint(s: State) {
    forall ch :: ch in s.free ==> ch !in s.serverToClient
  }

  /** A busy channel is among the channels of the client it is busy for. */
  ghost predicate Consistent(s: State) {
    forall ch :: ch in s.serverToClient ==> ch in ServersOf(s.clientToServers, s.serverToClient[ch])
  }

  /** Every registry entry is keyed by the context that handed the request over. */
  ghost predicate RequestKeyed(s: State) {
    && (forall ch :: ch in s.serverToClient ==> s.serverToClient[ch].RequestContext?)
    && (forall ctx :: ctx in s.clientToServers ==> ctx.RequestContext?)
  }

  ghost predicate Inv(s: State) {
    NoDuplicates(s.free) && FreeDisjoint(s) && Consistent(s) && RequestKeyed(s)
  }

  // ---------------------------------------------------------------------
  // Callbacks

  /** `sendBadGateway`: the response is written only while the client's channel is active. */
  function SendBadGateway(client: ClientId, active: set<ClientId>): (out: seq<Output>)
    ensures |out| <= 1
    ensures out != [] <==> client in active
    ensures forall o :: o in out ==> o == BadGateway(client)
  {
    if client in active then [BadGateway(client)] else []
  }

  /**
   * The close listener of a server channel: the channel leaves the free pool
   * and the server-to-client map; if a client was waiting on it, the channel
   * leaves that client's set and the client gets one bad gateway.
   */
  function OnServerChannelClosed(s: State, ch: Channel, active: set<ClientId>): (r: Step)
    ensures forall x :: x in r.state.free <==> x in s.free && x != ch
    ensures forall x :: x in r.state.serverToClient <==> x in s.serverToClient && x != ch
    ensures forall x :: x in r.state.serverToClient ==> r.state.serverToClient[x] == s.serverToClient[x]
    ensures r.state.addresses == s.addresses
    ensures ch !in s.serverToClient ==> r.state.clientToServers == s.clientToServers && r.out == []
    ensures ch in s.serverToClient ==>
      var ctx := s.serverToClient[ch];
      && (forall x :: x in ServersOf(r.state.clientToServers, ctx) <==> x in ServersOf(s.clientToServers, ctx) && x != ch)
      && (forall k :: k != ctx ==> ServersOf(r.state.clientToServers, k) == ServersOf(s.clientToServers, k))
      && (ctx.client in active ==> r.out == [BadGateway(ctx.client)])
      && (ctx.client !in active ==> r.out == [])
  {
    var free := Remove(s.free, ch);
    if ch in s.serverToClient then
      var ctx := s.serverToClient[ch];
      Step(State(s.serverToClient - {ch}, RemoveValue(s.clientToServers, ctx, ch), free, s.addresses),
           SendBadGateway(ctx.client, active))
    else
      Step(s.(free := free), [])
  }

  /**
   * Frees the channels of `chans` that are busy for `key`, in order: each
   * leaves the server-to-client map (`remove(channel, key)`) and joins the
   * free pool.  Channels busy for another context are left alone.
   */
  function Unbind(s2c: map<Channel, Context>, free: seq<Channel>, key: Context, chans: seq<Channel>)
    : (r: (map<Channel, Context>, seq<Channel>))
    ensures forall ch :: ch in r.0 <==> ch in s2c && !(ch in chans && s2c[ch] == key)
    ensures forall ch :: ch in r.0 ==> r.0[ch] == s2c[ch]
    ensures forall ch :: ch in r.1 <==> ch in free || (ch in chans && ch in s2c && s2c[ch] == key)
    ensures NoDuplicates(free) ==> NoDuplicates(r.1)
    decreases |chans|
  {
    if chans == [] then (s2c, free)
    else
      var ch := chans[0];
      assert forall x :: x in chans <==> x == ch || x in chans[1..];
      if ch in s2c && s2c[ch] == key then Unbind(s2c - {ch}, Add(free, ch), key, chans[1..])
      else Unbind(s2c, free, key, chans[1..])
  }

  /**
   * `ClientChannelStateHandler.channelInactive` for the handler context
   * `key`: the context's entry leaves the client-to-servers relation, and
   * each of its channels still busy for this very context is unmapped and
   * returned to the free pool.
   */
  function ClientInactive(s: State, key: Context): (r: Step)
    ensures r.state.clientToServers == s.clientToServers - {key}
    ensures forall ch :: ch in r.state.serverToClient <==>
      ch in s.serverToClient && !(ch in ServersOf(s.clientToServers, key) && s.serverToClient[ch] == key)
    ensures forall ch :: ch in s.serverToClient && s.serverToClient[ch] != key ==>
      ch in r.state.serverToClient && r.state.serverToClient[ch] == s.serverToClient[ch]
    ensures forall ch :: ch in r.state.free <==>
      ch in s.free || (ch in ServersOf(s.clientToServers, key) && ch in s.serverToClient && s.serverToClient[ch] == key)
    ensures r.state.addresses == s.addresses && r.out == []
  {
    var chans := ServersOf(s.clientToServers, key);
    var (s2c, free) := Unbind(s.serverToClient, s.free, key, chans);
    Step(State(s2c, s.clientToServers - {key}, free, s.addresses), [])
  }

  /**
   * The handler as written: Netty passes it its own context, not the
   * context the registries are keyed by, so on registries keyed by request
   * contexts it changes nothing.
   */
  function OnClientChannelInactiveAsWritten(s: State, client: ClientId): (r: Step)
    ensures StateHandlerContext(client) !in r.state.clientToServers && r.out == []
    ensures RequestKeyed(s) ==> r.state == s
  {
    ClientInactive(s, StateHandlerContext(client))
  }

  /**
   * The handler as intended: the entries of the client's request context
   * are released, and every channel listed for it and busy for it is freed.
   */
  function OnClientChannelInactive(s: State, client: ClientId): (r: Step)
    ensures r.state.clientToServers == s.clientToServers - {RequestContext(client)} && r.out == []
    ensures r.state.addresses == s.addresses
    ensures forall ch :: ch in r.state.free <==>
      ch in s.free || (ch in ServersOf(s.clientToServers, RequestContext(client)) &&
                       ch in s.serverToClient && s.serverToClient[ch] == RequestContext(client))
    ensures forall ch ::
      ch in s.serverToClient && s.serverToClient[ch] == RequestContext(client) &&
      ch in ServersOf(s.clientToServers, RequestContext(client)) ==>
        ch !in r.state.serverToClient && ch in r.state.free
    ensures forall ch :: ch in s.serverToClient && s.serverToClient[ch] != RequestContext(client) ==>
      ch in r.state.serverToClient && r.state.serverToClient[ch] == s.serverToClient[ch]
  {
    ClientInactive(s, RequestContext(client))
  }

  /**
   * `findFreeServerChannel`: only the first channel of the free pool is
   * looked at; it is taken out and returned exactly when its remote port is
   * the target's port (the host is not compared).
   */
  function FindFreeServerChannel(free: seq<Channel>, address: SocketAddress): (r: (Option<Channel>, seq<Channel>))
    ensures r.0.Some? <==> free != [] && free[0].remote.port == address.port
    ensures r.0.Some? ==> r.0.value == free[0] && r.1 == free[1..]
    ensures r.0.None? ==> r.1 == free
  {
    if free != [] && free[0].remote.port == address.port then (Some(free[0]), free[1..]) else (None, free)
  }

  /**
   * `findActiveServerChannel`: the first of the client's channels whose
   * whole remote address (host and port) equals the target.
   */
  function FindActiveServerChannel(chans: seq<Channel>, address: SocketAddress): (r: Option<Channel>)
    ensures r.None? <==> forall ch :: ch in chans ==> ch.remote != address
    ensures r.Some? ==> exists i :: (0 <= i < |chans| && chans[i] == r.value && r.value.remote == address
      && forall j :: 0 <= j < i ==> chans[j].remote != address)
  {
    if chans == [] then None
    else if chans[0].remote == address then
      Some(chans[0])
    else
      var r := FindActiveServerChannel(chans[1..], address);
      assert forall x :: x in chans <==> x == chans[0] || x in chans[1..];
      if r.Some? then
        var i :| 0 <= i < |chans[1..]| && chans[1..][i] == r.value && r.value.remote == address
          && forall j :: 0 <= j < i ==> chans[1..][j].remote != address;
        assert chans[i + 1] == r.value;
        assert forall j :: 0 <= j < i + 1 ==> chans[j].remote != address by {
          forall j | 0 <= j < i + 1 ensures chans[j].remote != address {
            if j > 0 { assert chans[j] == chans[1..][j - 1]; }
          }
        }
        r
      else r
  }

  /**
   * Makes `ch` busy for `ctx`: the channel is mapped to the context and
   * joins the context's set of channels.
   */
  function Bind(s: State, ctx: Context, ch: Channel): (r: State)
    ensures ch in r.serverToClient && r.serverToClient[ch] == ctx
    ensures forall x :: x != ch ==> (x in r.serverToClient <==> x in s.serverToClient)
    ensures forall x :: x != ch && x in s.serverToClient ==> r.serverToClient[x] == s.serverToClient[x]
    ensures forall x :: x in ServersOf(r.clientToServers, ctx) <==> x in ServersOf(s.clientToServers, ctx) || x == ch
    ensures forall k :: k != ctx ==> ServersOf(r.clientToServers, k) == ServersOf(s.clientToServers, k)
    ensures r.free == s.free && r.addresses == s.addresses
  {
    s.(serverToClient := s.serverToClient[ch := ctx],
       clientToServers := PutValue(s.clientToServers, ctx, ch))
  }

  /**
   * Reuse of a free channel as written: the channel joins the client's set
   * but is not mapped back to the client in the server-to-client map.
   */
  function AdoptFreeChannelAsWritten(s: State, ctx: Context, ch: Channel): (r: State)
    ensures r.serverToClient == s.serverToClient && r.free == s.free && r.addresses == s.addresses
    ensures forall x :: x in ServersOf(r.clientToServers, ctx) <==> x in ServersOf(s.clientToServers, ctx) || x == ch
    ensures forall k :: k != ctx ==> ServersOf(r.clientToServers, k) == ServersOf(s.clientToServers, k)
  {
    s.(clientToServers := PutValue(s.clientToServers, ctx, ch))
  }

  /** The write of a forwarded request to a server channel. */
  function WriteTo(ch: Channel, clientRequest: Request, path: string): Output {
    Write(ch, Forwarded(clientRequest, path, ch.remote))
  }

  /**
   * `sendToServer(servedDir, ...)` for a directory whose pub serve address
   * is known.  A channel of the client already connected to that address is
   * used as it is; failing that, the first free channel, if its port
   * matches, is taken out of the pool and bound to the client; failing
   * that, a connection attempt is started and nothing changes yet.
   */
  function SendToServer(s: State, dir: ServedDir, client: ClientId, clientRequest: Request, path: string): (r: Routed)
    requires dir in s.addresses
    ensures var address := s.addresses[dir];
      var ctx := RequestContext(client);
      match FindActiveServerChannel(ServersOf(s.clientToServers, ctx), address)
      case Some(ch) =>
        r == Routed(Step(s, [WriteTo(ch, clientRequest, path)]), None)
      case None =>
        if s.free != [] && s.free[0].remote.port == address.port then
          && r.pending == None
          && r.step.out == [WriteTo(s.free[0], clientRequest, path)]
          && r.step.state.free == s.free[1..]
          && r.step.state.serverToClient == s.serverToClient[s.free[0] := ctx]
          && (forall x :: x in ServersOf(r.step.state.clientToServers, ctx) <==>
                x in ServersOf(s.clientToServers, ctx) || x == s.free[0])
          && (forall k :: k != ctx ==> ServersOf(r.step.state.clientToServers, k) == ServersOf(s.clientToServers, k))
          && r.step.state.addresses == s.addresses
        else
          r == Routed(Step(s, []), Some(PendingConnect(client, clientRequest, path, address)))
  {
    var address := s.addresses[dir];
    var ctx := RequestContext(client);
    match FindActiveServerChannel(ServersOf(s.clientToServers, ctx), address)
    case Some(ch) =>
      Routed(Step(s, [WriteTo(ch, clientRequest, path)]), None)
    case None =>
      var (found, free) := FindFreeServerChannel(s.free, address);
      match found
      case Some(ch) => Routed(Step(Bind(s.(free := free), ctx, ch), [WriteTo(ch, clientRequest, path)]), None)
      case None => Routed(Step(s, []), Some(PendingConnect(client, clientRequest, path, address)))
  }

  /**
   * `sendToServer` as written: routing is the same as `SendToServer`'s, but
   * a free channel taken for the client is only adopted, as
   * `AdoptFreeChannelAsWritten` says, so the server-to-client map is never
   * changed.  With an empty free pool it is `SendToServer`.
   */
  function SendToServerAsWritten(s: State, dir: ServedDir, client: ClientId, clientRequest: Request, path: string)
    : (r: Routed)
    requires dir in s.addresses
    ensures r.step.state.serverToClient == s.serverToClient && r.step.state.addresses == s.addresses
    ensures r.step.out == SendToServer(s, dir, client, clientRequest, path).step.out
    ensures r.pending == SendToServer(s, dir, client, clientRequest, path).pending
    ensures r.step.state.free == SendToServer(s, dir, client, clientRequest, path).step.state.free
    ensures s.free == [] ==> r == SendToServer(s, dir, client, clientRequest, path)
    ensures r.step.state == SendToServer(s, dir, client, clientRequest, path).step.state.(serverToClient := s.serverToClient)
  {
    var address := s.addresses[dir];
    var ctx := RequestContext(client);
    match FindActiveServerChannel(ServersOf(s.clientToServers, ctx), address)
    case Some(ch) =>
      Routed(Step(s, [WriteTo(ch, clientRequest, path)]), None)
    case None =>
      var (found, free) := FindFreeServerChannel(s.free, address);
      match found
      case Some(ch) => Routed(Step(AdoptFreeChannelAsWritten(s.(free := free), ctx, ch), [WriteTo(ch, clientRequest, path)]), None)
      case None => Routed(Step(s, []), Some(PendingConnect(client, clientRequest, path, address)))
  }

  /**
   * The consumer given to `connect`: no channel means a bad gateway for the
   * client; a new channel, which must not be mapped yet, is bound to the
   * client and the request is written to it.
   */
  function OnConnected(s: State, p: PendingConnect, result: Option<Channel>, active: set<ClientId>): (r: Step)
    requires result.Some? ==> result.value !in s.serverToClient
    ensures result.None? ==> r.state == s && r.out == SendBadGateway(p.client, active)
    ensures result.Some? ==> var ch := result.value;
      && r.state.serverToClient == s.serverToClient[ch := RequestContext(p.client)]
      && (forall x :: x in ServersOf(r.state.clientToServers, RequestContext(p.client)) <==>
            x in ServersOf(s.clientToServers, RequestContext(p.client)) || x == ch)
      && (forall k :: k != RequestContext(p.client) ==>
            ServersOf(r.state.clientToServers, k) == ServersOf(s.clientToServers, k))
      && r.state.free == s.free && r.state.addresses == s.addresses
      && r.out == [Write(ch, Forwarded(p.request, p.path, ch.remote))]
  {
    match result
    case None => Step(s, SendBadGateway(p.client, active))
    case Some(ch) => Step(Bind(s, RequestContext(p.client), ch), [WriteTo(ch, p.request, p.path)])
  }

  /**
   * `PubServeChannelHandler.messageReceived`: a message from pub serve goes
   * to the client waiting on the channel when that client is active;
   * otherwise a reference-counted message is released.
   */
  function MessageReceived(s: State, ch: Channel, message: Message, active: set<ClientId>): (r: Step)
    ensures r.state == s
    ensures (exists c :: r.out == [Forward(c, message)]) <==>
      ch in s.serverToClient && s.serverToClient[ch].client in active
    ensures ch in s.serverToClient && s.serverToClient[ch].client in active ==>
      r.out == [Forward(s.serverToClient[ch].client, message)]
    ensures r.out == [Release(message)] <==>
      !(ch in s.serverToClient && s.serverToClient[ch].client in active) && message.refCounted
    ensures r.out == [] <==>
      !(ch in s.serverToClient && s.serverToClient[ch].client in active) && !message.refCounted
  {
    if ch in s.serverToClient && s.serverToClient[ch].client in active then
      Step(s, [Forward(s.serverToClient[ch].client, message)])
    else if message.refCounted then
      Step(s, [Release(message)])
    else
      Step(s, [])
  }

  /** The address-map insert of `connectToProcess`; the directory must not have an address yet. */
  function ConnectToProcess(s: State, dir: ServedDir, loopbackHost: string, port: Port): (r: State)
    requires dir !in s.addresses
    ensures r.addresses.Keys == s.addresses.Keys + {dir}
    ensures r.addresses[dir] == SocketAddress(loopbackHost, port)
    ensures forall d :: d in s.addresses ==> r.addresses[d] == s.addresses[d]
    ensures r.serverToClient == s.serverToClient && r.clientToServers == s.clientToServers && r.free == s.free
  {
    s.(addresses := s.addresses[dir := SocketAddress(loopbackHost, port)])
  }

  /**
   * The registry part of `closeProcessConnections`: addresses, free pool and
   * server-to-client map are cleared; the client-to-servers relation is kept.
   */
  function TearDown(s: State): (r: State)
    ensures r.addresses == map[] && r.free == [] && r.serverToClient == map[]
    ensures r.clientToServers == s.clientToServers
  {
    State(map[], s.clientToServers, [], map[])
  }

  /** The server channels busy, in `s2c`, for a context on the channel of `client`. */
  function BusyFor(s2c: map<Channel, Context>, keys: set<Channel>, client: ClientId): set<Channel> {
    set ch | ch in keys && ch in s2c && s2c[ch].client == client
  }

  lemma BusyForGrows(s2c: map<Channel, Context>, done: set<Channel>, ch: Channel, client: ClientId)
    requires ch in s2c && ch !in done
    ensures |BusyFor(s2c, done + {ch}, client)| ==
      |BusyFor(s2c, done, client)| + (if s2c[ch].client == client then 1 else 0)
  {
    if s2c[ch].client == client {
      assert BusyFor(s2c, done + {ch}, client) == BusyFor(s2c, done, client) + {ch};
    } else {
      assert BusyFor(s2c, done + {ch}, client) == BusyFor(s2c, done, client);
    }
  }

  /**
   * `closeProcessConnections`: the registries are cleared as `TearDown`
   * says, then every entry that was in the server-to-client map gets one
   * bad gateway, written only when its client is active.
   */
  method CloseProcessConnections(s: State, active: set<ClientId>) returns (r: State, out: seq<Output>)
    ensures r.addresses == map[] && r.free == [] && r.serverToClient == map[]
    ensures r.clientToServers == s.clientToServers
    ensures forall o :: o in out ==> o.BadGateway? && o.client in active
    ensures forall c :: (multiset(out)[BadGateway(c)] ==
      if c in active then |BusyFor(s.serverToClient, s.serverToClient.Keys, c)| else 0)
  {
    r := TearDown(s);
    out := [];
    var rest := s.serverToClient.Keys;
    while rest != {}
      invariant rest <= s.serverToClient.Keys
      invariant forall o :: o in out ==> o.BadGateway? && o.client in active
      invariant forall c :: (multiset(out)[BadGateway(c)] ==
        if c in active then |BusyFor(s.serverToClient, s.serverToClient.Keys - rest, c)| else 0)
      decreases |rest|
    {
      var ch :| ch in rest;
      var client := s.serverToClient[ch].client;
      forall c ensures |BusyFor(s.serverToClient, (s.serverToClient.Keys - rest) + {ch}, c)| ==
        |BusyFor(s.serverToClient, s.serverToClient.Keys - rest, c)| + (if client == c then 1 else 0)
      {
        BusyForGrows(s.serverToClient, s.serverToClient.Keys - rest, ch, c);
      }
      assert s.serverToClient.Keys - (rest - {ch}) == (s.serverToClient.Keys - rest) + {ch};
      out := out + SendBadGateway(client, active);
      rest := rest - {ch};
    }
    assert s.serverToClient.Keys - rest == s.serverToClient.Keys;
  }

  // ---------------------------------------------------------------------
  // Every callback keeps the invariant

  lemma InitialInv()
    ensures Inv(Initial)
  {
  }

  lemma ServerChannelClosedKeepsInv(s: State, ch: Channel, active: set<ClientId>)
    requires Inv(s)
    ensures Inv(OnServerChannelClosed(s, ch, active).state)
  {
  }

  /**
   * The close listener takes the closed channel out of the free pool where
   * it stands; the other idle channels keep their order, which decides the
   * channel `FindFreeServerChannel` offers next.
   */
  lemma ServerChannelClosedKeepsPoolOrder(s: State, ch: Channel, active: set<ClientId>, k: nat)
    requires NoDuplicates(s.free) && k < |s.free| && s.free[k] == ch
    ensures OnServerChannelClosed(s, ch, active).state.free == s.free[..k] + s.free[k + 1..]
  {
    RemoveAt(s.free, ch, k);
  }

  lemma ClientInactiveKeepsInv(s: State, key: Context)
    requires Inv(s)
    ensures Inv(ClientInactive(s, key).state)
  {
    var s' := ClientInactive(s, key).state;
    forall ch | ch in s'.serverToClient
      ensures ch in ServersOf(s'.clientToServers, s'.serverToClient[ch])
    {
      assert s.serverToClient[ch] != key;
    }
  }

  /** Taking the first free channel out of the pool and binding it to a request context keeps the invariant. */
  lemma BindFirstFreeKeepsInv(s: State, ctx: Context)
    requires Inv(s) && s.free != [] && ctx.RequestContext?
    ensures Inv(Bind(s.(free := s.free[1..]), ctx, s.free[0]))
  {
    var ch := s.free[0];
    var s' := Bind(s.(free := s.free[1..]), ctx, ch);
    forall x | x in s'.free ensures x !in s'.serverToClient {
      assert x in s.free && x != ch by {
        var k :| 0 <= k < |s.free[1..]| && s.free[1..][k] == x;
        assert s.free[k + 1] == x;
      }
    }
    assert NoDuplicates(s'.free);
    forall x | x in s'.serverToClient ensures x in ServersOf(s'.clientToServers, s'.serverToClient[x]) {
      if x != ch {
        assert x in ServersOf(s.clientToServers, s.serverToClient[x]);
      }
    }
  }

  lemma SendToServerKeepsInv(s: State, dir: ServedDir, client: ClientId, clientRequest: Request, path: string)
    requires Inv(s) && dir in s.addresses
    ensures Inv(SendToServer(s, dir, client, clientRequest, path).step.state)
  {
    var address := s.addresses[dir];
    var ctx := RequestContext(client);
    if FindActiveServerChannel(ServersOf(s.clientToServers, ctx), address).None? {
      if s.free != [] && s.free[0].remote.port == address.port {
        assert SendToServer(s, dir, client, clientRequest, path).step.state == Bind(s.(free := s.free[1..]), ctx, s.free[0]);
        BindFirstFreeKeepsInv(s, ctx);
      }
    }
  }

  /** Routing as written keeps the invariant too: an adopted channel is in no map that the invariant constrains. */
  lemma SendToServerAsWrittenKeepsInv(s: State, dir: ServedDir, client: ClientId, clientRequest: Request, path: string)
    requires Inv(s) && dir in s.addresses
    ensures Inv(SendToServerAsWritten(s, dir, client, clientRequest, path).step.state)
  {
  }

  lemma ConnectedKeepsInv(s: State, p: PendingConnect, result: Option<Channel>, active: set<ClientId>)
    requires Inv(s)
    requires result.Some? ==> result.value !in s.serverToClient && result.value !in s.free
    ensures Inv(OnConnected(s, p, result, active).state)
  {
    if result.Some? {
      var ch := result.value;
      var ctx := RequestContext(p.client);
      var s' := Bind(s, ctx, ch);
      assert OnConnected(s, p, result, active).state == s';
      assert FreeDisjoint(s');
      forall x | x in s'.serverToClient ensures x in ServersOf(s'.clientToServers, s'.serverToClient[x]) {
        if x != ch {
          assert x in ServersOf(s.clientToServers, s.serverToClient[x]);
        }
      }
      assert RequestKeyed(s');
    }
  }

  lemma ConnectToProcessKeepsInv(s: State, dir: ServedDir, loopbackHost: string, port: Port)
    requires Inv(s) && dir !in s.addresses
    ensures Inv(ConnectToProcess(s, dir, loopbackHost, port))
  {
  }

  lemma TearDownKeepsInv(s: State)
    requires Inv(s)
    ensures Inv(TearDown(s))
  {
  }
}

=== FILE: pub_server_findings.dfy ===
/**
 * Two places where `PubServerService` as written does not do what its
 * registries are evidently for, each shown on the code as written and
 * proved right for the corrected step the rest of the model uses.
 */
module PubServerFindings {
  import opened Wrappers
  import opened PubServerTypes
  import opened ForwardRequest
  import opened PubServer

  // ---------------------------------------------------------------------
  // 1. channelInactive looks the client up under the wrong context

  /**
   * As written, `channelInactive` receives the client-state handler's own
   * context, under which nothing is ever registered, so it changes nothing:
   * every channel busy for the departed client stays busy and none returns
   * to the free pool.
   */
  lemma InactiveHandlerAsWrittenChangesNothing(s: State, client: ClientId)
    requires RequestKeyed(s)
    ensures OnClientChannelInactiveAsWritten(s, client).state == s
  {
    assert StateHandlerContext(client) !in s.clientToServers;
  }

  /** A concrete run: a client with one busy channel goes away, and the channel stays bound to it. */
  lemma InactiveHandlerAsWrittenKeepsChannelBusy()
    ensures
      var ch := Channel(1, SocketAddress("127.0.0.1", 8080));
      var s := State(map[ch := RequestContext(7)], map[RequestContext(7) := [ch]], [], map[]);
      var s' := OnClientChannelInactiveAsWritten(s, 7).state;
      ch in s'.serverToClient && ch !in s'.free
  {
    var ch := Channel(1, SocketAddress("127.0.0.1", 8080));
    var s := State(map[ch := RequestContext(7)], map[RequestContext(7) := [ch]], [], map[]);
    InactiveHandlerAsWrittenChangesNothing(s, 7);
  }

  /**
   * Corrected: releasing the client's request context frees every channel
   * busy for it, drops its entry, and leaves other clients' channels alone.
   */
  lemma InactiveHandlerFreesClientChannels(s: State, client: ClientId)
    requires Inv(s)
    ensures var s' := OnClientChannelInactive(s, client).state;
      && RequestContext(client) !in s'.clientToServers
      && (forall ch :: ch in s.serverToClient && s.serverToClient[ch] == RequestContext(client) ==>
            ch !in s'.serverToClient && ch in s'.free)
      && (forall ch :: ch in s.serverToClient && s.serverToClient[ch] != RequestContext(client) ==>
            ch in s'.serverToClient && s'.serverToClient[ch] == s.serverToClient[ch])
  {
  }

  // ---------------------------------------------------------------------
  // 2. A reused free channel is not mapped back to its new client

  /**
   * As written, a free channel taken for a client only joins the client's
   * set: a message pub serve sends on it is never passed to the client, and
   * when it closes the client gets no bad gateway.
   */
  lemma AdoptAsWrittenLeavesChannelUnrouted(s: State, ctx: Context, ch: Channel, message: Message, active: set<ClientId>)
    requires Inv(s) && s.free != [] && ch == s.free[0]
    ensures var s' := AdoptFreeChannelAsWritten(s.(free := s.free[1..]), ctx, ch);
      && (forall c :: Forward(c, message) !in MessageReceived(s', ch, message, active).out)
      && OnServerChannelClosed(s', ch, active).out == []
  {
    assert ch in s.free;
  }

  /**
   * Corrected: when a request is served by a free channel, the channel is
   * bound to the client, so pub serve's answer reaches the client while it
   * is active, and the channel closing tells the client with a bad gateway.
   */
  lemma ReusedChannelAnswersClient(s: State, dir: ServedDir, client: ClientId, clientRequest: Request, path: string,
                                   message: Message, active: set<ClientId>)
    requires dir in s.addresses && client in active
    requires FindActiveServerChannel(ServersOf(s.clientToServers, RequestContext(client)), s.addresses[dir]).None?
    requires s.free != [] && s.free[0].remote.port == s.addresses[dir].port
    ensures var r := SendToServer(s, dir, client, clientRequest, path);
      && r.step.out == [Write(s.free[0], Forwarded(clientRequest, path, s.free[0].remote))]
      && MessageReceived(r.step.state, s.free[0], message, active).out == [Forward(client, message)]
      && OnServerChannelClosed(r.step.state, s.free[0], active).out == [BadGateway(client)]
  {
  }

  /** The same holds for a channel opened for the request. */
  lemma ConnectedChannelAnswersClient(s: State, p: PendingConnect, ch: Channel, message: Message, active: set<ClientId>)
    requires ch !in s.serverToClient && p.client in active
    ensures var s' := OnConnected(s, p, Some(ch), active).state;
      && MessageReceived(s', ch, message, active).out == [Forward(p.client, message)]
      && OnServerChannelClosed(s', ch, active).out == [BadGateway(p.client)]
  {
  }
}

=== FILE: pub_server_trace.dfy ===
/**
 * The proxy driven by arbitrary sequences of events from its environment:
 * clients connecting, sending requests and going away, connection attempts
 * finishing, server channels closing, messages arriving from pub serve, and
 * the pub serve process starting and stopping.  The routing invariant holds
 * after every sequence.
 */
module PubServerTrace {
  import opened Wrappers
  import opened OrderedSets
  import opened PubServerTypes
  import opened ForwardRequest
  import opened PubServer

  datatype Event =
    | ClientConnected(client: ClientId)
    | ClientRequest(client: ClientId, dir: ServedDir, request: Request, path: string)
    | ConnectFinished(index: nat, result: Option<Channel>)
    | ServerChannelClosed(channel: Channel)
    | ClientChannelClosed(client: ClientId)
    | BackendMessage(channel: Channel, message: Message)
    | ProcessReady(dir: ServedDir, loopbackHost: string, port: Port)
    | ProcessStopped

  /**
   * The proxy's registries plus the part of the world Netty owns: which
   * client channels are active, which carry the client-state handler, and
   * the connection attempts under way.
   */
  datatype World = World(state: State, active: set<ClientId>, watched: set<ClientId>, pending: seq<PendingConnect>)

  const Start: World := World(Initial, {}, {}, [])

  /** A connection attempt for `p` can yield `result`: a new channel to the address asked for. */
  predicate CanConnect(s: State, p: PendingConnect, result: Option<Channel>) {
    result.Some? ==> result.value !in s.serverToClient && result.value !in s.free && result.value.remote == p.address
  }

  /**
   * One event.  Events that cannot happen in the state at hand (a request
   * for a directory pub serve does not serve, the completion of an attempt
   * that was never started, a second address for a directory) leave the
   * world as it is.
   */
  function Next(w: World, e: Event): World {
    match e
    case ClientConnected(c) =>
      w.(active := w.active + {c})
    case ClientRequest(c, dir, request, path) =>
      if dir in w.state.addresses then
        var r := SendToServer(w.state, dir, c, request, path);
        w.(state := r.step.state, pending := w.pending + if r.pending.Some? then [r.pending.value] else [])
      else w
    case ConnectFinished(i, result) =>
      if i < |w.pending| && CanConnect(w.state, w.pending[i], result) then
        var p := w.pending[i];
        w.(state := OnConnected(w.state, p, result, w.active).state,
           watched := if result.Some? then w.watched + {p.client} else w.watched,
           pending := w.pending[..i] + w.pending[i + 1..])
      else w
    case ServerChannelClosed(ch) =>
      w.(state := OnServerChannelClosed(w.state, ch, w.active).state)
    case ClientChannelClosed(c) =>
      var s := if c in w.watched then OnClientChannelInactive(w.state, c).state else w.state;
      w.(state := s, active := w.active - {c}, watched := w.watched - {c})
    case BackendMessage(ch, message) =>
      w.(state := MessageReceived(w.state, ch, message, w.active).state)
    case ProcessReady(dir, host, port) =>
      if dir !in w.state.addresses then w.(state := ConnectToProcess(w.state, dir, host, port)) else w
    case ProcessStopped =>
      w.(state := TearDown(w.state))
  }

  function Run(w: World, events: seq<Event>): World
    decreases |events|
  {
    if events == [] then w else Run(Next(w, events[0]), events[1..])
  }

  /**
   * One event for the program as written: a request served by a free
   * channel only adopts it, and a client's channel closing runs the handler
   * keyed by the handler's own context.  Every other event is as in `Next`.
   */
  function NextAsWritten(w: World, e: Event): World {
    match e
    case ClientRequest(c, dir, request, path) =>
      if dir in w.state.addresses then
        var r := SendToServerAsWritten(w.state, dir, c, request, path);
        w.(state := r.step.state, pending := w.pending + if r.pending.Some? then [r.pending.value] else [])
      else w
    case ClientChannelClosed(c) =>
      var s := if c in w.watched then OnClientChannelInactiveAsWritten(w.state, c).state else w.state;
      w.(state := s, active := w.active - {c}, watched := w.watched - {c})
    case _ => Next(w, e)
  }

  function RunAsWritten(w: World, events: seq<Event>): World
    decreases |events|
  {
    if events == [] then w else RunAsWritten(NextAsWritten(w, events[0]), events[1..])
  }

  lemma NextKeepsInv(w: World, e: Event)
    requires Inv(w.state)
    ensures Inv(Next(w, e).state)
  {
    match e
    case ClientRequest(c, dir, request, path) =>
      if dir in w.state.addresses {
        SendToServerKeepsInv(w.state, dir, c, request, path);
      }
    case ConnectFinished(i, result) =>
      if i < |w.pending| && CanConnect(w.state, w.pending[i], result) {
        ConnectedKeepsInv(w.state, w.pending[i], result, w.active);
      }
    case ServerChannelClosed(ch) =>
      ServerChannelClosedKeepsInv(w.state, ch, w.active);
    case ClientChannelClosed(c) =>
      ClientInactiveKeepsInv(w.state, RequestContext(c));
    case ProcessReady(dir, host, port) =>
      if dir !in w.state.addresses {
        ConnectToProcessKeepsInv(w.state, dir, host, port);
      }
    case ProcessStopped =>
      TearDownKeepsInv(w.state);
    case _ =>
  }

  lemma {:induction false} RunKeepsInv(w: World, events: seq<Event>)
    requires Inv(w.state)
    ensures Inv(Run(w, events).state)
    decreases |events|
  {
    if events != [] {
      NextKeepsInv(w, events[0]);
      RunKeepsInv(Next(w, events[0]), events[1..]);
    }
  }

  /**
   * As written, nothing ever adds to the free pool: from a state satisfying
   * the invariant with an empty pool, every event keeps both.
   */
  lemma NextAsWrittenKeepsPoolEmpty(w: World, e: Event)
    requires Inv(w.state) && w.state.free == []
    ensures Inv(NextAsWritten(w, e).state) && NextAsWritten(w, e).state.free == []
  {
    match e
    case ClientRequest(c, dir, request, path) =>
      if dir in w.state.addresses {
        SendToServerAsWrittenKeepsInv(w.state, dir, c, request, path);
      }
    case ClientChannelClosed(c) =>
    case _ =>
      NextKeepsInv(w, e);
  }

  lemma {:induction false} RunAsWrittenKeepsPoolEmpty(w: World, events: seq<Event>)
    requires Inv(w.state) && w.state.free == []
    ensures Inv(RunAsWritten(w, events).state) && RunAsWritten(w, events).state.free == []
    decreases |events|
  {
    if events != [] {
      NextAsWrittenKeepsPoolEmpty(w, events[0]);
      RunAsWrittenKeepsPoolEmpty(NextAsWritten(w, events[0]), events[1..]);
    }
  }

  /**
   * After any sequence of events no channel is both idle and busy, idle
   * channels are listed once, every busy channel is among its client's
   * channels, and every entry is keyed by a request context.  This holds
   * for the program as written too, where moreover the free pool stays
   * empty, so a request is never served by a free channel.
   */
  lemma ReachableInv(events: seq<Event>)
    ensures Inv(Run(Start, events).state)
    ensures Inv(RunAsWritten(Start, events).state) && RunAsWritten(Start, events).state.free == []
  {
    InitialInv();
    RunKeepsInv(Start, events);
    RunAsWrittenKeepsPoolEmpty(Start, events);
  }

  /**
   * As written, the free-channel branch of routing is never taken on a
   * reachable state: routing as written and corrected agree there.
   */
  lemma ReachableAsWrittenNeverAdopts(events: seq<Event>, dir: ServedDir, client: ClientId, request: Request, path: string)
    requires dir in RunAsWritten(Start, events).state.addresses
    ensures var s := RunAsWritten(Start, events).state;
      SendToServerAsWritten(s, dir, client, request, path) == SendToServer(s, dir, client, request, path)
  {
    InitialInv();
    RunAsWrittenKeepsPoolEmpty(Start, events);
  }
}

=== FILE: pub_server_types.dfy ===
/**
 * The entities the pub serve proxy works with.  Netty channels and handler
 * contexts become abstract identifiers; a channel keeps the remote address
 * it was connected to.
 */
module PubServerTypes {

  /** A client's channel to the IDE's built-in web server. */
  type ClientId = nat

  /**
   * A Netty `ChannelHandlerContext` on a client channel.  `RequestContext` is
   * the context of the web-server handler that hands each request to the
   * proxy, and so the key of every registry entry; `StateHandlerContext` is
   * the context of the proxy's own client-state handler, a different handler
   * added later to the same pipeline.  `client` is the context's `channel()`.
   */
  datatype Context = RequestContext(client: ClientId) | StateHandlerContext(client: ClientId)

  /** A TCP port, as `InetSocketAddress` accepts it. */
  type Port = p: int | 0 <= p <= 0xFFFF

  /** An `InetSocketAddress`; `host` is the textual host address. */
  datatype SocketAddress = SocketAddress(host: string, port: Port)

  /** An outbound channel to the pub serve process and the address it is connected to. */
  datatype Channel = Channel(id: nat, remote: SocketAddress)

  /** A served directory, named by its path. */
  type ServedDir = string

  /** An HTTP object read from the pub serve process; some of them hold a reference count. */
  datatype Message = Message(id: nat, refCounted: bool)
}

=== FILE: trim_range.dfy ===
/**
 * `OsgiPsiUtil.trimRange`: the range of an element's text that holds the
 * trimmed text of a given range.  Offsets are relative to the element.
 */
module TrimRange {
  import opened JavaText

  /** An IntelliJ `TextRange`: the half-open offsets [start, end). */
  datatype TextRange = TextRange(start: int, end: int)

  predicate ValidIn(r: TextRange, text: string) {
    0 <= r.start <= r.end <= |text|
  }

  /** A slice of a slice is a slice of the original. */
  lemma SliceOfSlice(s: string, i: nat, j: nat, a: nat, b: nat)
    requires i <= j <= |s| && a <= b <= j - i
    ensures s[i..j][a..b] == s[i + a..i + b]
  {
    assert forall k :: 0 <= k < b - a ==> s[i..j][a..b][k] == s[i + a + k];
  }

  /**
   * `trimRange(element, range)`: the range's text is trimmed and then
   * located by its first occurrence in the whole element text.
   */
  function TrimRangeIn(text: string, range: TextRange): TextRange
    requires ValidIn(range, text)
  {
    var substring := Trim(text[range.start..range.end]);
    var start := IndexOf(text, substring);
    TextRange(start, start + |substring|)
  }

  /**
   * The result spans exactly the trimmed text and is its first occurrence
   * in the element text, which can lie before the range but never after
   * the place it was cut from; an empty trimmed text gives (0, 0).
   */
  lemma TrimRangeInFindsTrimmedText(text: string, range: TextRange)
    requires ValidIn(range, text)
    ensures var r := TrimRangeIn(text, range);
      var s := Trim(text[range.start..range.end]);
      && ValidIn(r, text)
      && r.end == r.start + |s|
      && text[r.start..r.end] == s
      && (forall j :: 0 <= j < r.start ==> !OccursAt(text, s, j))
      && r.start <= range.start + TrimStart(text[range.start..range.end])
      && (s == [] ==> r == TextRange(0, 0))
  {
    var piece := text[range.start..range.end];
    var lead := TrimStart(piece);
    assert OccursAt(text, Trim(piece), range.start + lead) by {
      SliceOfSlice(text, range.start, range.end, lead, TrimEnd(piece, lead));
    }
  }

  /** Over the whole text, the first occurrence of its trimmed text is where the leading blanks end. */
  lemma TrimmedTextFirstOccurrence(text: string)
    ensures Trim(text) != [] ==> IndexOf(text, Trim(text)) == TrimStart(text)
  {
    TrimSplits(text);
    var t := Trim(text);
    var lead := TrimStart(text);
    if t != [] {
      assert OccursAt(text, t, lead) by {
        assert text[lead..lead + |t|] == t;
      }
    }
  }

  /** `trimRange(element)`: the two-argument form over the full range [0, length). */
  function TrimRangeOf(text: string): TextRange {
    TrimRangeIn(text, TextRange(0, |text|))
  }

  /**
   * Over the whole text the first occurrence is the trimmed text itself,
   * so `trimRange(element)` runs from the first to just past the last
   * non-blank character; an all-blank text gives (0, 0).
   */
  lemma TrimRangeOfIsTrimmedExtent(text: string)
    ensures Trim(text) != [] ==> TrimRangeOf(text) == TextRange(TrimStart(text), TrimEnd(text, TrimStart(text)))
    ensures Trim(text) == [] ==> TrimRangeOf(text) == TextRange(0, 0)
  {
    assert text[0..|text|] == text;
    TrimSplits(text);
    TrimmedTextFirstOccurrence(text);
  }

  /** Where the trimmed text of a range sits in the element text, with only blanks around it inside the range. */
  lemma TrimmedPieceInText(text: string, range: TextRange)
    requires ValidIn(range, text)
    ensures var piece := text[range.start..range.end];
      var a := range.start + TrimStart(piece);
      var t := Trim(piece);
      && a + |t| <= range.end
      && text[a..a + |t|] == t
      && (forall i :: range.start <= i < a ==> Blank(text[i]))
      && (forall i :: a + |t| <= i < range.end ==> Blank(text[i]))
      && (t == [] ==> forall i :: range.start <= i < range.end ==> Blank(text[i]))
  {
    var piece := text[range.start..range.end];
    var lead := TrimStart(piece);
    var e := TrimEnd(piece, lead);
    assert Trim(piece) == piece[lead..e];
    var a := range.start + lead;
    SliceOfSlice(text, range.start, range.end, lead, e);
    forall i | range.start <= i < range.end ensures text[i] == piece[i - range.start] {
    }
  }

  /**
   * The range as evidently intended: the trimmed text located inside the
   * given range, where it was cut from; an empty trimmed text gives the
   * empty range at the range's start.
   */
  function TrimRangeWithin(text: string, range: TextRange): TextRange
    requires ValidIn(range, text)
  {
    var piece := text[range.start..range.end];
    var t := Trim(piece);
    if t == [] then TextRange(range.start, range.start)
    else TextRange(range.start + TrimStart(piece), range.start + TrimStart(piece) + |t|)
  }

  /** The corrected range lies inside the given one, spans its trimmed text, and has only blanks around it. */
  lemma TrimRangeWithinStaysInRange(text: string, range: TextRange)
    requires ValidIn(range, text)
    ensures var r := TrimRangeWithin(text, range);
      && range.start <= r.start <= r.end <= range.end
      && text[r.start..r.end] == Trim(text[range.start..range.end])
      && (forall i :: range.start <= i < r.start ==> Blank(text[i]))
      && (forall i :: r.end <= i < range.end ==> Blank(text[i]))
  {
    TrimmedPieceInText(text, range);
  }

  /** As written, the range found for "a" cut from "a a" at [2, 3) is [0, 1), outside the range. */
  lemma TrimRangeInCanLeaveRange()
    ensures TrimRangeIn("a a", TextRange(2, 3)) == TextRange(0, 1)
    ensures TrimRangeWithin("a a", TextRange(2, 3)) == TextRange(2, 3)
  {
    var text := "a a";
    assert text[2..3] == "a";
    assert TrimStart("a") == 0;
    assert TrimEnd("a", 0) == 1;
    assert Trim("a") == "a";
    assert text[0..1] == "a";
    assert IndexOf(text, "a") == 0;
    assert Trim(text[2..3]) == "a";
  }

  /** On the whole text both readings agree, so the one-argument overload is unaffected. */
  lemma WholeTextRangesAgree(text: string)
    ensures TrimRangeWithin(text, TextRange(0, |text|)) == TrimRangeOf(text)
  {
    assert text[0..|text|] == text;
    TrimSplits(text);
    TrimmedTextFirstOccurrence(text);
  }
}

=== FILE: wrappers.dfy ===
/** Optional values: the model's stand-in for Java's nullable references. */
module Wrappers {

  datatype Option<+T> = None | Some(value: T)
}
